=== FILE: README.md ===
# wikiracer core in Dafny

wikiracer finds a chain of Wikipedia links from one article title to another.
It runs a bidirectional breadth-first search. The forward side starts at the
source title and follows the links each page reports. The backward side starts
at the target title. Each side keeps a visited map from every discovered title
to the title it was discovered from, where the empty title marks the root. Each
side also keeps a queue of titles for its next layer. When one side finds a
title the other side has already visited, that title is the midpoint. `path`
walks the forward predecessors back from the midpoint to the source. It then
walks the backward predecessors on to the target.

This project models that core as pure functions over immutable values:

- `VisitedMaps` (`visited.dfy`): the visited map and its predecessor walks.
  `Walk` carries fuel, and `WalkBound` shows that `|m| + 1` steps always
  suffice. `Rooted` is the invariant that every walk ends at a root.
- `Graph` (`graph.dfy`): `PageGraph`, `checkForward` / `checkBackward`
  (insert-if-absent, then probe the other side), one breadth-first layer of
  each search, and the root setup. A layer is modelled as an early-exit run of
  inserts.
- `Paths` (`paths.dfy`): `path` as a method (walk loop, swap loop, pop, walk
  loop), with a reference definition `JoinedPath` and its shape.
- `Searches` (`search.dfy`): the layer loops of `searchForward` and
  `searchBackward` on a link oracle, with each layer checking the reported
  links of its queued pages in an order given by a schedule. It proves, for
  every such schedule, that whichever side meets the other produces a
  midpoint whose path runs from the source to the target along links.
- `Batches` (`batches.dfy`): `batch`.
- `LinkSets` (`links.dfy`): `Links.add`, `extractLinks`, `extractContinue` and
  `linksResponse.UnmarshalJSON`, on an already decoded response.
- `Queries` (`queries.dfy`): the parameter set `buildQuery` sends, and how a
  response's continuation token flows into the next query.

The `PageGraph` logic appears twice in the repository: in `links/links.go`
(lines 57-215) and in `wikiracer.go` (lines 49-188, with `path` at 84-112).
The two copies are identical apart from the package of `LinksFrom`. It is
modelled once, and the table below cites lines from either copy.

The code's backward side calls the same outbound-link source as the forward
side. For each queried page `to` and each link `from` of that page,
`checkBackward(from, to)` records `to` as the backward predecessor of `from`.
It then stops if the forward side has visited `to`, the queried page, rather
than the newly recorded `from`. So the backward side grows along outbound
links, not along the inbound links a backward search would normally follow:
`Searches.PathLinks` shows that the path of a midpoint follows links up to the
midpoint and runs against them after it.
The model follows the code: `ProcessBackward` probes the linking page and
reports it as the midpoint.

## Model

| member | source | states |
|---|---|---|
| VisitedMaps.Get | links/links.go:82-87 | A lookup yields the stored predecessor of a visited title and the empty title for an unvisited one, which `path` reads as the end of a walk. |
| VisitedMaps.WalkShape | links/links.go:115-120 | A finished predecessor walk starts at its title, never lists the empty title, steps from each title to its predecessor, and stops at a title whose predecessor reads as empty. |
| VisitedMaps.ChainShape | links/links.go:131-136 | The same shape for the walk with the standard fuel: first title, last title whose predecessor is empty, predecessor steps in between. |
| VisitedMaps.WalkMono | links/links.go:116 | Extra fuel never changes a walk that has already ended, so the result of the loop does not depend on the bound chosen. |
| VisitedMaps.WalkExact | links/links.go:116 | A finished walk needs exactly as many steps as it lists titles. |
| VisitedMaps.WalkSuffix | links/links.go:115-120 | Every suffix of a finished walk is itself the walk from that suffix's first title. |
| VisitedMaps.WalkDistinct | links/links.go:115-120 | A walk that terminates never repeats a title. |
| VisitedMaps.WalkBodyInKeys | links/links.go:119 | Every title on a walk except the last is a visited key, because only visited titles have a non-empty predecessor. |
| VisitedMaps.WalkBound | links/links.go:115-120 | A walk that ends at all lists at most one more title than the map holds and no title twice, so `WalkEnds` holds exactly when the `path` loop terminates. |
| VisitedMaps.WalkInKeys | links/links.go:170 | In a map whose predecessors are all visited or empty, a walk from a visited title stays inside the visited titles. |
| VisitedMaps.WalkUnaffected | links/links.go:170 | Storing a key that a finished walk never passes leaves that walk unchanged. |
| VisitedMaps.InsertRooted | wikiracer.go:139-145 | Inserting a new title whose predecessor is empty or already visited keeps every predecessor chain ending at a root. This is the invariant that makes `path` terminate. |
| Graph.VisitSpec | wikiracer.go:139-145 | Insert-if-absent: an unvisited title gets the given predecessor and joins the end of the queue. A visited title keeps its first predecessor and the queue is unchanged. No other entry changes. |
| Graph.CheckForward | links/links.go:165-177 | Only the forward side changes, as insert-if-absent of the linked page. The check reports done exactly when the backward side has already visited the linked page. |
| Graph.CheckBackward | links/links.go:203-215 | Only the backward side changes, as insert-if-absent of `from` with predecessor `to`. The check reports done exactly when the forward side has visited `to`. |
| Graph.FirstInsertWins | wikiracer.go:138-150 | A second check of an already recorded title changes nothing: the first predecessor and the single queue entry stay. |
| Graph.InsertAllQueue | links/links.go:151-157 | After a run of checks, the queue has gained exactly the newly discovered titles, each once, in first-seen order. |
| Graph.InsertAllKeys | links/links.go:151-157 | After a run of checks, the visited titles are exactly the titles visited before plus the linked pages. |
| Graph.InsertAllKeeps | links/links.go:166-167 | A title visited before a run of checks keeps its predecessor through the run. |
| Graph.InsertAllHas | links/links.go:166-171 | Every linked page of a run of checks is visited afterwards. |
| Graph.InsertAllFirst | links/links.go:166-171 | A newly discovered title's predecessor is the linking page of the first edge that reached it. |
| Graph.InsertAllSpec | links/links.go:150-157 | A run of checks explores as `Explored` describes: queue in first-seen order, keys are the old keys plus the linked pages, old entries kept, and first-edge predecessors for new titles. |
| Graph.InsertAllValid | links/links.go:165-172 | Checks whose linking pages are visited keep a side valid: rooted chains, no empty title visited, every queued title visited. |
| Graph.StartValid | wikiracer.go:59-66 | From `NewPageGraph`, the root setup of `searchForward` and `searchBackward` (wikiracer.go lines 115-116 and 153-154, links/links.go lines 142-143 and 180-181) gives two valid sides, each holding only its root, mapped to the empty title and alone in its queue. |
| Graph.ProcessForwardKeepsBackward | links/links.go:150-157 | The forward edge loop never changes the backward side. |
| Graph.ProcessBackwardKeepsForward | links/links.go:188-195 | The backward edge loop never changes the forward side. |
| Graph.ProcessForwardAt | links/links.go:150-157 | Given the index of the first edge whose linked page the backward side has visited, the forward edge loop returns that page. It has inserted exactly the edges up to and including that one, or every edge when there is no such index. |
| Graph.ProcessForwardSpec | links/links.go:150-157 | The forward edge loop is an early-exit run of checks that stops right after the first edge whose linked page the backward side has visited. |
| Graph.ProcessBackwardAt | links/links.go:188-195 | Given the index of the first edge whose linking page the forward side has visited, the backward edge loop returns that linking page. It has inserted exactly the edges up to and including that one. |
| Graph.ProcessBackwardSpec | links/links.go:188-195 | The backward edge loop is an early-exit run of checks that stops right after the first edge whose linking page the forward side has visited. |
| Graph.ForwardLayerNoHit | wikiracer.go:118-131 | A forward layer that meets nothing continues. Its new queue is exactly the linked titles not visited before, each once, in first-seen order. The backward side is untouched. |
| Graph.ForwardLayerHit | links/links.go:150-155 | A forward layer with a linked page the backward side has visited stops at the first such edge and returns that page, having inserted only the edges up to it. |
| Graph.BackwardLayerNoHit | wikiracer.go:156-169 | A backward layer that meets nothing continues with exactly the newly linked titles queued once each, in first-seen order. The forward side is untouched. |
| Graph.BackwardLayerHit | links/links.go:188-193 | A backward layer stops at the first edge whose linking page the forward side has visited and returns that linking page, having inserted only the edges up to it. |
| Graph.ForwardLayerValid | links/links.go:145-177 | A forward layer over links of queued pages keeps the forward side valid and leaves the backward side alone. A midpoint it returns is visited on both sides. |
| Graph.BackwardLayerValid | links/links.go:183-215 | A backward layer over links of queued pages keeps the backward side valid and leaves the forward side alone. A midpoint it returns is visited on both sides. |
| Paths.SwapReverse | wikiracer.go:95-98 | The in-place swap loop reverses the list. |
| Paths.AppendWalk | links/links.go:131-136 | One walk loop appends the titles from the start title down to the root, in walk order. |
| Paths.Path | links/links.go:111-139 | `path` returns the reversed forward chain without its duplicate midpoint, followed by the backward chain from the midpoint. |
| Paths.PathIndex | links/links.go:111-139 | Position by position, the path is the forward chain read backwards up to the midpoint, then the backward chain. Its length is the sum of both chain lengths minus one. |
| Paths.PathForwardSteps | links/links.go:115-128 | Up to the midpoint, each title of the path is the forward predecessor of the next, and the first title has no forward predecessor. |
| Paths.PathBackwardSteps | links/links.go:131-136 | From the midpoint on, each title's backward predecessor is the next title, and the last title has no backward predecessor. |
| Paths.PathShape | links/links.go:111-139 | The path is one chain of recorded discoveries through the midpoint: root to midpoint by forward links, midpoint to root by backward links. |
| Paths.PathBetweenRoots | links/links.go:111-139 | When both sides are valid and both visited the midpoint, the walks terminate. The path begins at a forward root and ends at a backward root. |
| Paths.PathExample | wikiracer.go:84-112 | Forward A<-B<-M and backward M->C->D through midpoint M yield A, B, M, C, D. |
| Paths.PathUnvisitedMidpoint | wikiracer.go:88-109 | A midpoint neither side has recorded comes back as the one-title path. |
| Paths.SameTitleMeetsAtOnce | links/links.go:179-215 | Searching from a title to itself, the first backward check already meets the forward root, and the path is that title alone. |
| Batches.ChunksFlatten | links/links.go:218-230 | Concatenating the batches gives back the input list. |
| Batches.ChunksSizes | links/links.go:221-227 | No batch is empty or longer than `max`, and every batch but the last is exactly `max` long. |
| Batches.ChunksCount | links/links.go:221-227 | There are ceil(n / max) batches, and none for an empty list. |
| Batches.ChunksSpec | links/links.go:218-230 | The reference batching is order-preserving, full-sized except the last, and has ceil(n / max) parts. |
| Batches.ChunksExamples | links/links_test.go:74-93 | The five cases of `TestBatch`. |
| Batches.Batch | links/links.go:218-230 | The batching loop produces the reference batches, with all their properties. |
| LinkSets.Add | links/links.go:271-287 | A link with a boring end or a self-link leaves the lists unchanged. Otherwise the target is appended to the source's list, which is created if absent and may hold duplicates. No other list changes. |
| LinkSets.AddFiltered | links/links.go:271-287 | `add` keeps every recorded list non-empty and free of boring or self links. |
| LinkSets.AddAll | links/links.go:384-387 | Adding a page's links appends exactly the kept links, in order, to that page's list. The page gets a key only if a link is kept. Other pages are untouched. |
| LinkSets.AddAllFiltered | links/links.go:384-387 | Adding a page's links keeps every list non-empty and interesting. |
| LinkSets.ExtractContinue | links/links.go:362-369 | The token is `continue[subkey]` when both levels are present and empty otherwise. |
| LinkSets.ExtractLinks | links/links.go:374-391 | The decoded lists contain no boring link, no self-link and no empty list. |
| LinkSets.ExtractPagesFiltered | links/links.go:379-389 | The page loop keeps lists filtered. |
| LinkSets.ExtractPagesSpec | links/links.go:379-389 | For every title, the page loop appends the kept links of every page with that title, in page order. A key is added exactly when such a link exists. |
| LinkSets.PageStep | links/links.go:380-388 | One page adds its kept links under its own title and nothing under any other title. A page without the list adds nothing. |
| LinkSets.LinksForUnique | links/links.go:379-389 | When a title occurs on one page only, the other pages contribute nothing to it. |
| LinkSets.LinksForAbsent | links/links.go:379-389 | Pages with other titles contribute nothing to a title. |
| LinkSets.ExtractLinksPage | links/links.go:379-389 | With distinct page titles, each page's list is exactly its kept links in response order. A page without the list, or with every link filtered out, gets no key. |
| LinkSets.ExtractLinksOnlyPages | links/links.go:379-389 | A title that no page carries gets no list. |
| LinkSets.ExtractLinksOrderFree | links/links.go:379 | With distinct titles, the result does not depend on the page order, which Go's map iteration leaves unspecified. |
| LinkSets.TysonKept | links/links_test.go:61-67 | When none of the example's titles is boring, all three of Mike Tyson's links are kept. |
| LinkSets.TysonLinksExtracted | links/links_test.go:61-71 | The example response yields Mike Tyson's three links and no entry for the page without links. |
| LinkSets.DecodeExample | links/links_test.go:50-72 | `TestLinksResponse_UnmarshalJSON`: the `plcontinue` token comes back and the links are exactly Mike Tyson's three, in order. |
| Queries.AddValue | links/links.go:240-243 | `Values.Add` appends one value under a key and leaves every other key alone. |
| Queries.SplitJoin | links/links.go:237 | Joining titles with a vertical bar loses nothing when no title contains one: splitting gives the titles back. |
| Queries.KeysDistinct | links/links.go:233-243 | The prefixed parameter names never collide with the fixed ones or with each other, whatever the prefix. |
| Queries.QueryBase | links/links.go:233-241 | Before any continuation, a query holds exactly action=query, format=json, the property, the joined titles, the namespace list of main, category and portal (0, 14, 100) and limit=max. |
| Queries.QueryParams | links/links.go:232-247 | The full parameter set: the base parameters plus the prefixed continue key exactly when the token is non-empty, each key holding one value. |
| Queries.QueryTitles | links/links.go:237 | The titles of a query can be recovered from its `titles` parameter. |
| Queries.NextQuery | links/links.go:312-330 | The next query continues exactly when the response carried a non-empty prefixed continue token, and it passes that token back unchanged. |
| Queries.QueryExample | links/links_test.go:95-110 | `TestBuildQuery`: prop, titles, continue, limit and namespace as the test expects. |
| Searches.LayerEdgesSound | links/links.go:150-152 | Every edge of a layer joins a queued page to one of its reported links. |
| Searches.LayerEdgesComplete | links/links.go:150-152 | Every reported link of every queued page is an edge of the layer. |
| Searches.LayerFromPages | links/links.go:146-152 | A layer's edges come from the snapshot queue and name non-empty titles. |
| Searches.InQueueOrderSchedule | links/links.go:150-153 | Taking each queued page's links together, pages in queue order, is a schedule that checks only reported links of queued pages and checks all of them. |
| Searches.ReportedFromPages | links/links.go:150-153 | Edges that are reported links of queued pages, in any order, come from the snapshot queue and name non-empty titles. |
| Searches.SoundFromQueue | links/links.go:150-153 | A schedule that checks only reported links of queued pages, on a link source that never reports the empty title, checks only edges from queued pages to non-empty titles. |
| Searches.InsertAllRoot | links/links.go:170 | Checks whose linking pages are visited never create a second root. |
| Searches.ForwardLayerRoot | links/links.go:142-158 | A forward layer keeps the source as the only forward root. |
| Searches.BackwardLayerRoot | links/links.go:180-196 | A backward layer keeps the target as the only backward root. |
| Searches.ForwardStep | links/links.go:145-158 | One forward layer over any sequence of edges from the queued pages to non-empty titles, in any order and with pages interleaved, keeps the forward side valid with its single root and leaves the backward side alone. It meets only on a title both sides visited. |
| Searches.BackwardStep | links/links.go:183-196 | The same for one backward layer over any sequence of edges from its queued pages to non-empty titles. |
| Searches.SearchForwardOther | links/links.go:141-163 | For every schedule of layer edges: the forward search never changes the backward side. |
| Searches.SearchForwardSide | links/links.go:141-163 | For every schedule whose layers check only edges from queued pages to non-empty titles: the forward search keeps its side valid with the source as its only root. |
| Searches.SearchForwardMeets | links/links.go:141-163 | For every schedule whose layers check only edges from queued pages to non-empty titles: a midpoint the forward search returns is visited on both sides. |
| Searches.SearchForwardValid | links/links.go:141-163 | For every schedule whose layers check only edges from queued pages to non-empty titles: the forward search keeps its invariant, leaves the other side alone, and meets only on doubly visited titles. |
| Searches.SearchBackwardOther | links/links.go:179-201 | For every schedule of layer edges: the backward search never changes the forward side. |
| Searches.SearchBackwardSide | links/links.go:179-201 | For every schedule whose layers check only edges from queued pages to non-empty titles: the backward search keeps its side valid with the target as its only root. |
| Searches.SearchBackwardMeets | links/links.go:179-201 | For every schedule whose layers check only edges from queued pages to non-empty titles: a midpoint the backward search returns is visited on both sides. |
| Searches.SearchBackwardValid | links/links.go:179-201 | For every schedule whose layers check only edges from queued pages to non-empty titles: the backward search keeps its invariant, leaves the other side alone, and meets only on doubly visited titles. |
| Searches.InsertAllLinked | links/links.go:165-177 | Checks along reported links keep every recorded predecessor a page that links to the title recorded under it. |
| Searches.LayerPrefixLinks | links/links.go:151-153 | Every edge of the part of a layer that is checked before an early exit is a reported link. |
| Searches.ForwardLayerLinked | links/links.go:146-157 | A forward layer over any sequence of reported links of its queued pages records only predecessors that link to their titles. |
| Searches.BackwardLayerLinked | links/links.go:184-195 | A backward layer over any sequence of reported links of its queued pages records `to` for a link `from` of `to`, so it too records only predecessors that link to their titles. |
| Searches.SearchForwardLinked | links/links.go:141-163 | For every schedule of layer edges that checks only reported links of queued pages: the whole forward search keeps every forward predecessor a linking page. |
| Searches.SearchBackwardLinked | links/links.go:179-201 | For every schedule of layer edges that checks only reported links of queued pages: the whole backward search keeps every backward predecessor a linking page. |
| Searches.PathTitles | links/links.go:111-139 | No title on the path of a midpoint is empty. |
| Searches.PathForwardLinks | links/links.go:111-120 | Up to the midpoint, each title of the path is a reported link of the title before it. |
| Searches.PathBackwardLinks | links/links.go:130-136 | After the midpoint, each title of the path reports the title before it as a link. |
| Searches.PathLinks | links/links.go:111-139 | The path of a midpoint follows links up to the midpoint, which sits where the reversed forward walk ends, and runs against them after it. |
| Searches.SearchForwardFollowsLinks | links/links.go:95-109 | For every schedule that checks only reported links of queued pages, a forward search over sides grown along links meets at a midpoint whose path follows links up to the midpoint and runs against them after it. |
| Searches.SearchBackwardFollowsLinks | links/links.go:95-109 | The same for a backward search. |
| Searches.PathFromTo | links/links.go:111-139 | With both sides valid and single-rooted, the path through a doubly visited midpoint starts at the source and ends at the target. |
| Searches.ForwardSearchPath | links/links.go:95-109 | For every schedule that checks only reported links of queued pages, in any order: run against any valid backward side rooted at the target, with a valid forward side rooted at the source, a forward search that meets gives a midpoint whose `path` terminates and runs from the source to the target. When both sides were grown along reported links, each step of that path up to the midpoint is a reported link, and each step after it is a reported link read backwards. |
| Searches.BackwardSearchPath | links/links.go:95-109 | For every such schedule: run against any valid forward side rooted at the source, with a valid backward side rooted at the target, a backward search that meets gives a midpoint whose `path` terminates and runs from the source to the target. It follows links up to the midpoint and runs against them after it, as for `ForwardSearchPath`. |
| Searches.ForwardSearchPathStarted | links/links.go:95-109 | The same for a forward search from the initial state, both sides holding only their root. The link conclusion holds unconditionally. |
| Searches.BackwardSearchPathStarted | links/links.go:95-109 | The same for a backward search from the initial state, both sides holding only their root. The link conclusion holds unconditionally. |
| Searches.DirectLinkMeets | links/links.go:141-158 | For every schedule that checks exactly the reported links of the queued pages, in any order, a source that links to the target meets in the first forward layer, at the target, with the source recorded as the target's forward predecessor. |
| Searches.DirectLinkLayer | links/links.go:145-158 | A first forward layer over edges that all leave the source, one of them to the target, in any order, meets at the target and records the source as its predecessor, leaving the backward side at its root. |
| Searches.InsertAllFrom | links/links.go:151-155 | Checking the links of one page records that page as predecessor of a new title it links to. |
| Searches.TwoStepPath | links/links.go:111-139 | A forward source->target record and a backward root at the target give the path source, target. |
| Searches.DirectLink | links/links.go:97-109 | For every such schedule, a source that links straight to the target yields the path source, target. |
| VisitedMaps.TwoCycleNeverEnds | links/links.go:115-120 | Two titles that are each other's predecessor make the walk loop of `path` run forever: no fuel is enough for a walk from either. |
| Searches.ReportedTitleCycle | links/links.go:151-153 | `checkForward` fed the title a page reports for itself, not the queued one, records two titles as each other's predecessor, and no walk through them ends. |

## Left out

- Goroutines and the channel of `Search`: the two sides run concurrently and the first midpoint sent wins. `ForwardSearchPath` and `BackwardSearchPath` prove either side against any valid snapshot of the other side rooted at its own end, and the snapshot is held fixed while that side runs. Changes to the other side in the middle of a layer, interleaved check by check, are not modelled.
- A side that exhausts its queue returns the empty title, and `path("")` then panics on the slice `path[0:-1]`. `Paths.Path` requires a non-empty midpoint, and `SearchForward` / `SearchBackward` return `Continue` in that case.
- Paths.Path: requires that both walks from the midpoint terminate. The Go loop runs forever on a predecessor cycle. `VisitedMaps.InsertRooted` shows the modelled searches never create one, but only because every `Sound` schedule checks each link under the title that was queued (see the Findings).
- The link source of a search reports each page's links under exactly the title that was queued. Go takes the title from the response (`fromTitle` in links/links.go:381, then the range over pages in links/links.go:151-153) and never checks it against the queue. A reported title that differs from the queued one records a predecessor outside the map and can close a cycle, as `Searches.ReportedTitleCycle` shows (see Findings).
- The `sync.RWMutex` around each map is not modelled: maps are immutable values.
- HTTP (`get`), URL encoding (`params.Encode`, the endpoint prefix) and `json.Unmarshal` are not modelled. The response is an already decoded datatype, so the type assertions that would panic on a malformed response cannot fail. A page whose link list is missing is modelled as having no list.
- `allLinks` / `LinksFrom` are modelled through their parts: `Batch`, `QueryParams`, `NextQuery` and `Decode`. The link source of a search is the oracle `links(page)`. `LinksFrom` sends one partial mapping per response (links/links.go:289-292 and 312-330), and Go ranges over each in map order, so a page's links may arrive split, with other pages' links in between. The edges each layer checks therefore come from a `Schedule` of the layer's fuel and queue: the lemmas that keep a side valid hold for every schedule that checks only edges from queued pages to non-empty titles (`FromQueue`), the lemmas about links for every schedule that checks only reported links of queued pages (`Sound`), and the direct-link lemmas also ask it to check all of them (`Complete`). `InQueueOrder`, each page's links together in queue order, is one such schedule.
- The boring-title regular expression is the predicate parameter `boring`, and regular-expression matching is not modelled.
- The CLI (`main`, `usage`), logging and the `net` package are not modelled.
- `SearchForward` / `SearchBackward` take a fuel bound on the number of layers, because the link graph may be infinite. The fuel of `VisitedMaps.Walk` is `|m| + 1`, which `WalkBound` shows is never the limit.
- Searches.ForwardSearchPath: assumes the link source never reports the empty title (`NoEmptyLinks`), which the Go code takes for granted, and that the layer schedule checks only reported links of queued pages (`Sound`), so links are recorded under the queued title.
- Searches.BackwardSearchPath: same assumptions as `Searches.ForwardSearchPath`.
- Searches.ForwardSearchPathStarted: same assumptions as `Searches.ForwardSearchPath`.
- Searches.BackwardSearchPathStarted: same assumptions as `Searches.ForwardSearchPath`.
- Batches.Batch: requires `max > 0`. For a non-empty list and `max == 0` the Go loop appends empty slices forever, and a negative `max` makes the slice panic. An empty list gives no batches for every `max`. The only caller passes 50.
- Graph.ForwardLayerHit: states the inserted prefix of edges rather than restating `Explored` for it. `Graph.InsertAllSpec` gives that description for any prefix.
- Graph.BackwardLayerHit: same as `Graph.ForwardLayerHit`.

## Findings

| source | as written | input that shows it | evidently intended | confidence | as-written member | corrected member |
|---|---|---|---|---|---|---|
| links/links.go:151-153 | `searchForward` passes the title the response reports for a page to `checkForward`, not the title it queued | a search from "mike Tyson", which the wiki reports as "Mike Tyson" because it upper-cases the first letter, where a page "Boxing" that "Mike Tyson" links to links back to it: "Boxing" and "Mike Tyson" become each other's predecessor and `path` never returns for a midpoint reached through them | record links under the queued title, as every `Sound` schedule of `Searches` does, so every predecessor is already visited and every walk ends at the root | medium, not executed; depends on the wiki rewriting the title | Searches.ReportedTitleCycle | Searches.ForwardSearchPath |

=== FILE: batches.dfy ===
/**
 * `batch` (links/links.go:217-230): cut a list of titles into consecutive
 * slices of at most `max` titles, the link source's per-request limit.
 */
module Batches {
  import opened Seqs

  /** Reference definition: a full slice of `max`, then the batches of the rest. */
  function Chunks<T>(s: seq<T>, max: nat): seq<seq<T>>
    requires max > 0
    decreases |s|
  {
    if s == [] then []
    else if |s| <= max then [s]
    else [s[..max]] + Chunks(s[max..], max)
  }

  /** Concatenating the batches gives back `s`. */
  lemma {:induction false} ChunksFlatten<T>(s: seq<T>, max: nat)
    requires max > 0
    ensures Flatten(Chunks(s, max)) == s
    decreases |s|
  {
    if |s| > max {
      ChunksFlatten(s[max..], max);
      assert Flatten(Chunks(s, max)) == s[..max] + Flatten(Chunks(s[max..], max));
      assert s == s[..max] + s[max..];
    } else if s != [] {
      assert Flatten(Chunks(s, max)) == s + Flatten([]);
    }
  }

  /** No batch is empty or longer than `max`, and all but the last are full. */
  lemma {:induction false} ChunksSizes<T>(s: seq<T>, max: nat)
    requires max > 0
    ensures forall k :: 0 <= k < |Chunks(s, max)| ==> 0 < |Chunks(s, max)[k]| <= max
    ensures forall k :: 0 <= k < |Chunks(s, max)| - 1 ==> |Chunks(s, max)[k]| == max
    decreases |s|
  {
    if |s| > max {
      var rest := Chunks(s[max..], max);
      ChunksSizes(s[max..], max);
      var r := Chunks(s, max);
      assert r == [s[..max]] + rest;
      forall k | 0 <= k < |r|
        ensures 0 < |r[k]| <= max
        ensures k < |r| - 1 ==> |r[k]| == max
      {
        if k > 0 {
          assert r[k] == rest[k - 1];
        }
      }
    }
  }

  /** `(a + 1) * m` unfolds to `a * m + m`. */
  lemma MulSucc(a: int, m: int)
    ensures (a + 1) * m == a * m + m
  {
  }

  /** There are ceil(|s| / max) batches. */
  lemma {:induction false} ChunksCount<T>(s: seq<T>, max: nat)
    requires max > 0
    ensures |Chunks(s, max)| == 0 <==> |s| == 0
    ensures |Chunks(s, max)| > 0 ==> (|Chunks(s, max)| - 1) * max < |s| <= |Chunks(s, max)| * max
    decreases |s|
  {
    if |s| > max {
      var rest := Chunks(s[max..], max);
      ChunksCount(s[max..], max);
      var n := |rest|;
      assert |Chunks(s, max)| == n + 1;
      assert |s| == |s[max..]| + max;
      MulSucc(n, max);
      MulSucc(n - 1, max);
    } else if s != [] {
      assert |Chunks(s, max)| == 1;
    }
  }

  /**
   * The batches give back `s` in order, none is empty or longer than `max`,
   * all but the last are exactly `max` long, and there are ceil(|s| / max)
   * of them.
   */
  lemma ChunksSpec<T>(s: seq<T>, max: nat)
    requires max > 0
    ensures Flatten(Chunks(s, max)) == s
    ensures forall k :: 0 <= k < |Chunks(s, max)| ==> 0 < |Chunks(s, max)[k]| <= max
    ensures forall k :: 0 <= k < |Chunks(s, max)| - 1 ==> |Chunks(s, max)[k]| == max
    ensures |Chunks(s, max)| == 0 <==> |s| == 0
    ensures |Chunks(s, max)| > 0 ==> (|Chunks(s, max)| - 1) * max < |s| <= |Chunks(s, max)| * max
  {
    ChunksFlatten(s, max);
    ChunksSizes(s, max);
    ChunksCount(s, max);
  }

  /** The cases of `TestBatch` in links/links_test.go. */
  lemma ChunksExamples()
    ensures Chunks<string>([], 3) == []
    ensures Chunks(["a"], 3) == [["a"]]
    ensures Chunks(["a", "b", "c"], 3) == [["a", "b", "c"]]
    ensures Chunks(["a", "b", "c", "d"], 3) == [["a", "b", "c"], ["d"]]
    ensures Chunks(["a", "b", "c", "d", "e"], 2) == [["a", "b"], ["c", "d"], ["e"]]
  {
    var s4 := ["a", "b", "c", "d"];
    assert s4[..3] == ["a", "b", "c"] && s4[3..] == ["d"];
    var s5 := ["a", "b", "c", "d", "e"];
    assert s5[..2] == ["a", "b"] && s5[2..] == ["c", "d", "e"];
    var s3 := ["c", "d", "e"];
    assert s3[..2] == ["c", "d"] && s3[2..] == ["e"];
  }

  /** The batches of a suffix: one slice of at most `max`, then the rest. */
  lemma ChunksStep<T>(s: seq<T>, start: nat, max: nat)
    requires max > 0 && start < |s|
    ensures var end := if start + max > |s| then |s| else start + max;
      Chunks(s[start..], max) == [s[start..end]] + Chunks(s[end..], max)
  {
    var end := if start + max > |s| then |s| else start + max;
    if end < |s| {
      assert s[start..][..max] == s[start..end];
      assert s[start..][max..] == s[end..];
    } else {
      assert s[start..] == s[start..end];
      assert s[end..] == [];
    }
  }

  /**
   * `batch(s, max)`. On a non-empty list, a `max` of zero never advances
   * the loop and a negative one makes the slice panic; `allLinks` passes 50
   * and the model asks for a positive `max`.
   */
  method Batch<T>(s: seq<T>, max: int) returns (batches: seq<seq<T>>)
    requires max > 0
    ensures batches == Chunks(s, max)
    ensures Flatten(batches) == s
    ensures forall k :: 0 <= k < |batches| ==> 0 < |batches[k]| <= max
    ensures forall k :: 0 <= k < |batches| - 1 ==> |batches[k]| == max
    ensures |batches| == 0 <==> |s| == 0
    ensures |batches| > 0 ==> (|batches| - 1) * max < |s| <= |batches| * max
  {
    batches := [];
    var start, end := 0, 0;
    while start < |s|
      invariant 0 <= start <= |s|
      invariant batches + Chunks(s[start..], max) == Chunks(s, max)
      decreases |s| - start
    {
      end := start + max;
      if end > |s| {
        end := |s|;
      }
      var b := s[start..end];
      assert batches + [b] + Chunks(s[end..], max) == Chunks(s, max) by {
        ChunksStep(s, start, max);
        assert batches + [b] + Chunks(s[end..], max) == batches + ([b] + Chunks(s[end..], max));
      }
      batches := batches + [b];
      start := end;
    }
    assert batches == Chunks(s, max) by {
      assert s[start..] == [];
      assert batches + [] == batches;
    }
    ChunksSpec(s, max);
  }
}

=== FILE: graph.dfy ===
/**
 * The bookkeeping of `PageGraph` (links/links.go:57-215, repeated in
 * wikiracer.go:49-188): two visited maps with their pending queues, the
 * insert-if-absent steps `checkForward` and `checkBackward`, one
 * breadth-first layer of `searchForward` and `searchBackward`, and the
 * root setup that starts each side.
 *
 * The links a layer receives from the link source are a parameter: the
 * sequence of edges in the order the loops of `searchForward` /
 * `searchBackward` visit them. While one side runs, the other side's map is
 * a fixed value, so the two goroutines are not interleaved here.
 */
module Graph {
  import opened Seqs
  import opened VisitedMaps

  /** Page `src` links to page `dst`, as the link source reports it. */
  datatype Edge = Edge(src: Title, dst: Title)

  /** The linking pages of `edges`, in order. */
  function Srcs(edges: seq<Edge>): (r: seq<Title>)
    ensures |r| == |edges|
    ensures forall i :: 0 <= i < |edges| ==> r[i] == edges[i].src
  {
    seq(|edges|, i requires 0 <= i < |edges| => edges[i].src)
  }

  /** The linked pages of `edges`, in order. */
  function Dsts(edges: seq<Edge>): (r: seq<Title>)
    ensures |r| == |edges|
    ensures forall i :: 0 <= i < |edges| ==> r[i] == edges[i].dst
  {
    seq(|edges|, i requires 0 <= i < |edges| => edges[i].dst)
  }

  /** One side of the search: its visited map and the queue of the next layer. */
  datatype Frontier = Frontier(visited: PredMap, queue: seq<Title>)

  /** The state shared by the two sides of one search. */
  datatype PageGraph = PageGraph(forward: Frontier, backward: Frontier)

  /** The state after one check, and whether the check met the other side. */
  datatype Checked = Checked(graph: PageGraph, done: bool)

  /**
   * The end of a layer: either the side met the other one at `midpoint`
   * and stopped mid-layer, or it processed every edge of the layer.
   */
  datatype LayerOutcome = Met(midpoint: Title, graph: PageGraph) | Continue(graph: PageGraph)

  /** `NewPageGraph`: both maps and both queues empty. */
  function NewPageGraph(): PageGraph
  {
    PageGraph(Frontier(map[], []), Frontier(map[], []))
  }

  /**
   * Insert-if-absent: a title not yet visited gets `pred` as predecessor and
   * joins the queue; a visited title keeps its first predecessor.
   */
  function Visit(f: Frontier, key: Title, pred: Title): Frontier
  {
    if key in f.visited then f
    else Frontier(f.visited[key := pred], f.queue + [key])
  }

  /**
   * `Visit` records `key` once: a new title gets `pred` and joins the end of
   * the queue, a visited one keeps its first predecessor and the queue is
   * unchanged, and no other title is touched.
   */
  lemma VisitSpec(f: Frontier, key: Title, pred: Title)
    ensures key in Visit(f, key, pred).visited
    ensures Visit(f, key, pred).visited[key] == if key in f.visited then f.visited[key] else pred
    ensures forall k :: k != key ==> (k in Visit(f, key, pred).visited <==> k in f.visited)
    ensures forall k :: k != key && k in f.visited ==> Visit(f, key, pred).visited[k] == f.visited[k]
    ensures Visit(f, key, pred).queue == if key in f.visited then f.queue else f.queue + [key]
  {
  }

  /**
   * `checkForward(from, to)`: record `from` as the forward predecessor of
   * `to` unless `to` is already visited, then report whether the backward
   * side has visited `to`.
   */
  function CheckForward(g: PageGraph, from: Title, to: Title): (r: Checked)
    ensures r.graph.forward == Visit(g.forward, to, from)
    ensures r.graph.backward == g.backward
    ensures r.done <==> to in g.backward.visited
  {
    var g' := g.(forward := Visit(g.forward, to, from));
    Checked(g', to in g'.backward.visited)
  }

  /**
   * `checkBackward(from, to)`: record `to` as the backward predecessor of
   * `from` unless `from` is already visited, then report whether the
   * forward side has visited `to` (not the inserted `from`).
   */
  function CheckBackward(g: PageGraph, from: Title, to: Title): (r: Checked)
    ensures r.graph.backward == Visit(g.backward, from, to)
    ensures r.graph.forward == g.forward
    ensures r.done <==> to in g.forward.visited
  {
    var g' := g.(backward := Visit(g.backward, from, to));
    Checked(g', to in g'.forward.visited)
  }

  /** Repeated checks of one title never replace its first predecessor. */
  lemma FirstInsertWins(g: PageGraph, a: Title, b: Title, to: Title)
    requires to !in g.forward.visited
    ensures var g1 := CheckForward(g, a, to).graph;
      && CheckForward(g1, b, to).graph == g1
      && g1.forward.visited[to] == a
      && g1.forward.queue == g.forward.queue + [to]
  {
  }

  /** Every edge's linked page, visited in order with the linking page as predecessor. */
  function InsertAll(f: Frontier, edges: seq<Edge>): Frontier
    decreases |edges|
  {
    if edges == [] then f
    else InsertAll(Visit(f, edges[0].dst, edges[0].src), edges[1..])
  }

  /**
   * What a run of inserts over `edges` leaves behind, stated without the
   * run: starting from visited map `before` and queue `q0`, the queue gains
   * the new titles in first-seen order, the map gains exactly those titles,
   * old entries are kept, and each new title's predecessor is the linking
   * page of the first edge that reached it.
   */
  ghost predicate Explored(before: PredMap, q0: seq<Title>, edges: seq<Edge>, after: Frontier)
  {
    && after.queue == q0 + FirstSeen(before.Keys, Dsts(edges))
    && (forall k :: k in after.visited <==> k in before || k in Dsts(edges))
    && (forall k :: k in before ==> after.visited[k] == before[k])
    && (forall k :: k !in before && k in Dsts(edges) ==>
          after.visited[k] == edges[FirstPos(Dsts(edges), k)].src)
  }

  /** A run of inserts queues the new linked pages in first-seen order. */
  lemma {:induction false} InsertAllQueue(f: Frontier, edges: seq<Edge>)
    ensures InsertAll(f, edges).queue == f.queue + FirstSeen(f.visited.Keys, Dsts(edges))
    decreases |edges|
  {
    if edges == [] {
      assert f.queue + [] == f.queue;
    } else {
      var e := edges[0];
      var f1 := Visit(f, e.dst, e.src);
      var ds := Dsts(edges);
      assert ds[0] == e.dst && ds[1..] == Dsts(edges[1..]);
      InsertAllQueue(f1, edges[1..]);
      var rest := FirstSeen(f1.visited.Keys, Dsts(edges[1..]));
      if e.dst in f.visited {
        assert FirstSeen(f.visited.Keys, ds) == rest;
      } else {
        assert f1.visited.Keys == f.visited.Keys + {e.dst};
        assert FirstSeen(f.visited.Keys, ds) == [e.dst] + rest;
        assert f.queue + [e.dst] + rest == f.queue + ([e.dst] + rest);
      }
    }
  }

  /** A run of inserts visits exactly the titles visited before and the linked pages. */
  lemma {:induction false} InsertAllKeys(f: Frontier, edges: seq<Edge>)
    ensures forall k :: k in InsertAll(f, edges).visited <==> k in f.visited || k in Dsts(edges)
    decreases |edges|
  {
    if edges != [] {
      var e := edges[0];
      var f1 := Visit(f, e.dst, e.src);
      assert forall k :: k in f1.visited <==> k in f.visited || k == e.dst by {
        VisitSpec(f, e.dst, e.src);
      }
      assert forall k :: k in Dsts(edges) <==> k == e.dst || k in Dsts(edges[1..]) by {
        EndsCons(edges);
      }
      InsertAllKeys(f1, edges[1..]);
    }
  }

  /** A run of inserts keeps the entry of a title visited before it. */
  lemma {:induction false} InsertAllKeeps(f: Frontier, edges: seq<Edge>, k: Title)
    requires k in f.visited
    ensures k in InsertAll(f, edges).visited
    ensures InsertAll(f, edges).visited[k] == f.visited[k]
    decreases |edges|
  {
    if edges != [] {
      InsertAllKeeps(Visit(f, edges[0].dst, edges[0].src), edges[1..], k);
    }
  }

  /** Every linked page of a run of inserts ends up visited. */
  lemma {:induction false} InsertAllHas(f: Frontier, edges: seq<Edge>, i: nat)
    requires i < |edges|
    ensures edges[i].dst in InsertAll(f, edges).visited
    decreases |edges|
  {
    var f1 := Visit(f, edges[0].dst, edges[0].src);
    if i == 0 {
      InsertAllKeeps(f1, edges[1..], edges[0].dst);
    } else {
      InsertAllHas(f1, edges[1..], i - 1);
    }
  }

  /**
   * A new linked page's predecessor is the linking page of the first edge
   * reaching it, given as index `i`.
   */
  lemma {:induction false} InsertAllFirst(f: Frontier, edges: seq<Edge>, k: Title, i: nat)
    requires i < |edges| && edges[i].dst == k
    requires forall j :: 0 <= j < i ==> edges[j].dst != k
    requires k !in f.visited
    ensures k in InsertAll(f, edges).visited
    ensures InsertAll(f, edges).visited[k] == edges[i].src
    decreases |edges|
  {
    var e, rest := edges[0], edges[1..];
    var f1 := Visit(f, e.dst, e.src);
    assert InsertAll(f, edges) == InsertAll(f1, rest);
    if i == 0 {
      InsertAllKeeps(f1, rest, k);
    } else {
      assert forall j :: 0 <= j < i - 1 ==> rest[j] == edges[j + 1];
      InsertAllFirst(f1, rest, k, i - 1);
    }
  }

  /** A run of inserts explores exactly as `Explored` describes. */
  lemma InsertAllSpec(f: Frontier, edges: seq<Edge>)
    ensures Explored(f.visited, f.queue, edges, InsertAll(f, edges))
  {
    InsertAllQueue(f, edges);
    InsertAllKeys(f, edges);
    forall k | k in f.visited
      ensures InsertAll(f, edges).visited[k] == f.visited[k]
    {
      InsertAllKeeps(f, edges, k);
    }
    forall k | k !in f.visited && k in Dsts(edges)
      ensures InsertAll(f, edges).visited[k] == edges[FirstPos(Dsts(edges), k)].src
    {
      InsertAllFirst(f, edges, k, FirstPos(Dsts(edges), k));
    }
  }

  /** The edges of a layer come from the snapshot `pages` and name real titles. */
  predicate FromPages(edges: seq<Edge>, pages: seq<Title>)
  {
    forall i :: 0 <= i < |edges| ==> edges[i].src in pages && edges[i].dst != ""
  }

  /**
   * The invariant one side keeps: chains end at a root, the empty title is
   * never visited, and every queued title has been visited.
   */
  predicate Valid(f: Frontier)
  {
    && Rooted(f.visited)
    && "" !in f.visited
    && forall i :: 0 <= i < |f.queue| ==> f.queue[i] in f.visited
  }

  /** Inserting edges whose linking pages are visited keeps a side valid. */
  lemma {:induction false} InsertAllValid(f: Frontier, edges: seq<Edge>)
    requires Valid(f)
    requires forall i :: 0 <= i < |edges| ==> edges[i].src in f.visited && edges[i].dst != ""
    ensures Valid(InsertAll(f, edges))
    decreases |edges|
  {
    if edges != [] {
      var e := edges[0];
      if e.dst !in f.visited {
        InsertRooted(f.visited, e.dst, e.src);
      }
      var f1 := Visit(f, e.dst, e.src);
      assert Valid(f1);
      InsertAllValid(f1, edges[1..]);
    }
  }

  /** `searchForward` up to the layer loop: the source becomes a root and is queued. */
  function StartForward(g: PageGraph, from: Title): PageGraph
  {
    g.(forward := Frontier(g.forward.visited[from := ""], g.forward.queue + [from]))
  }

  /** `searchBackward` up to the layer loop: the target becomes a root and is queued. */
  function StartBackward(g: PageGraph, to: Title): PageGraph
  {
    g.(backward := Frontier(g.backward.visited[to := ""], g.backward.queue + [to]))
  }

  /** A fresh search starts each side valid, with the root alone in the queue. */
  lemma StartValid(from: Title, to: Title)
    requires from != "" && to != ""
    ensures var g := StartBackward(StartForward(NewPageGraph(), from), to);
      && Valid(g.forward) && Valid(g.backward)
      && g.forward.visited == map[from := ""] && g.forward.queue == [from]
      && g.backward.visited == map[to := ""] && g.backward.queue == [to]
  {
    InsertRooted(map[], from, "");
    InsertRooted(map[], to, "");
  }

  /** The edge loop of `searchForward`: check each edge, stop at the first hit. */
  function ProcessForward(g: PageGraph, edges: seq<Edge>): LayerOutcome
    decreases |edges|
  {
    if edges == [] then Continue(g)
    else
      var c := CheckForward(g, edges[0].src, edges[0].dst);
      if c.done then Met(edges[0].dst, c.graph) else ProcessForward(c.graph, edges[1..])
  }

  /** One forward layer: the queue is snapshotted and emptied, then the layer's edges are checked. */
  function ForwardLayer(g: PageGraph, edges: seq<Edge>): LayerOutcome
  {
    ProcessForward(g.(forward := g.forward.(queue := [])), edges)
  }

  /** The edge loop of `searchBackward`, with the link source's outbound edges. */
  function ProcessBackward(g: PageGraph, edges: seq<Edge>): LayerOutcome
    decreases |edges|
  {
    if edges == [] then Continue(g)
    else
      var c := CheckBackward(g, edges[0].dst, edges[0].src);
      if c.done then Met(edges[0].src, c.graph) else ProcessBackward(c.graph, edges[1..])
  }

  /** One backward layer: the queue is snapshotted and emptied, then the layer's edges are checked. */
  function BackwardLayer(g: PageGraph, edges: seq<Edge>): LayerOutcome
  {
    ProcessBackward(g.(backward := g.backward.(queue := [])), edges)
  }

  /** The forward edge loop never touches the backward side. */
  lemma {:induction false} ProcessForwardKeepsBackward(g: PageGraph, edges: seq<Edge>)
    ensures ProcessForward(g, edges).graph.backward == g.backward
    decreases |edges|
  {
    if edges != [] {
      var c := CheckForward(g, edges[0].src, edges[0].dst);
      if !c.done {
        ProcessForwardKeepsBackward(c.graph, edges[1..]);
      }
    }
  }

  /** The backward edge loop never touches the forward side. */
  lemma {:induction false} ProcessBackwardKeepsForward(g: PageGraph, edges: seq<Edge>)
    ensures ProcessBackward(g, edges).graph.forward == g.forward
    decreases |edges|
  {
    if edges != [] {
      var c := CheckBackward(g, edges[0].dst, edges[0].src);
      if !c.done {
        ProcessBackwardKeepsForward(c.graph, edges[1..]);
      }
    }
  }

  /** How many edges a side processes when its first hit is at index `i`. */
  function Processed(i: nat, n: nat): nat
  {
    if i < n then i + 1 else n
  }

  /** The linked and linking pages of a non-empty edge list, head first. */
  lemma EndsCons(edges: seq<Edge>)
    requires edges != []
    ensures Dsts(edges) == [edges[0].dst] + Dsts(edges[1..])
    ensures Srcs(edges) == [edges[0].src] + Srcs(edges[1..])
  {
  }

  /** Inserting a non-empty prefix: the head first, then the rest of the prefix. */
  lemma InsertAllPrefix(f: Frontier, edges: seq<Edge>, n: nat)
    requires 0 < n <= |edges|
    ensures InsertAll(f, edges[..n]) == InsertAll(Visit(f, edges[0].dst, edges[0].src), edges[1..][..n - 1])
  {
    var p := edges[..n];
    assert p[0] == edges[0];
    assert p[1..] == edges[1..][..n - 1];
  }

  /**
   * The forward edge loop, given the index `i` of the first edge whose
   * linked page the backward side has visited (`|edges|` if none).
   */
  lemma {:induction false} ProcessForwardAt(g: PageGraph, edges: seq<Edge>, i: nat)
    requires i <= |edges|
    requires forall j :: 0 <= j < i ==> edges[j].dst !in g.backward.visited
    requires i < |edges| ==> edges[i].dst in g.backward.visited
    ensures ProcessForward(g, edges).graph == g.(forward := InsertAll(g.forward, edges[..Processed(i, |edges|)]))
    ensures ProcessForward(g, edges).Met? <==> i < |edges|
    ensures i < |edges| ==> ProcessForward(g, edges).midpoint == edges[i].dst
    decreases |edges|
  {
    if edges == [] {
      assert edges[..0] == [];
    } else if i == 0 {
      assert edges[..1] == [edges[0]];
    } else {
      var e, rest := edges[0], edges[1..];
      var g1 := g.(forward := Visit(g.forward, e.dst, e.src));
      var f := InsertAll(g1.forward, rest[..Processed(i - 1, |rest|)]);
      assert && ProcessForward(g1, rest).graph == g1.(forward := f)
             && (ProcessForward(g1, rest).Met? <==> i - 1 < |rest|)
             && (i - 1 < |rest| ==> ProcessForward(g1, rest).midpoint == rest[i - 1].dst)
      by {
        forall j | 0 <= j < i - 1
          ensures rest[j].dst !in g1.backward.visited
        {
          assert rest[j] == edges[j + 1];
        }
        ProcessForwardAt(g1, rest, i - 1);
      }
      assert InsertAll(g.forward, edges[..Processed(i, |edges|)]) == f by {
        InsertAllPrefix(g.forward, edges, Processed(i, |edges|));
      }
      assert ProcessForward(g, edges) == ProcessForward(g1, rest) by {
        assert CheckForward(g, e.src, e.dst) == Checked(g1, false);
      }
    }
  }

  /**
   * The forward edge loop is an early-exit run of inserts: it stops right
   * after the first edge whose linked page the backward side has visited,
   * and has then inserted exactly the edges up to and including that one.
   */
  lemma ProcessForwardSpec(g: PageGraph, edges: seq<Edge>)
    ensures ProcessForward(g, edges).graph == g.(forward := InsertAll(g.forward, edges[..Processed(FirstIn(Dsts(edges), g.backward.visited.Keys), |edges|)]))
    ensures ProcessForward(g, edges).Met? <==> FirstIn(Dsts(edges), g.backward.visited.Keys) < |edges|
    ensures FirstIn(Dsts(edges), g.backward.visited.Keys) < |edges| ==> ProcessForward(g, edges).midpoint == edges[FirstIn(Dsts(edges), g.backward.visited.Keys)].dst
  {
    ProcessForwardAt(g, edges, FirstIn(Dsts(edges), g.backward.visited.Keys));
  }

  /**
   * The backward edge loop, given the index `i` of the first edge whose
   * linking page the forward side has visited (`|edges|` if none).
   */
  lemma {:induction false} ProcessBackwardAt(g: PageGraph, edges: seq<Edge>, i: nat)
    requires i <= |edges|
    requires forall j :: 0 <= j < i ==> edges[j].src !in g.forward.visited
    requires i < |edges| ==> edges[i].src in g.forward.visited
    ensures ProcessBackward(g, edges).graph == g.(backward := InsertAll(g.backward, edges[..Processed(i, |edges|)]))
    ensures ProcessBackward(g, edges).Met? <==> i < |edges|
    ensures i < |edges| ==> ProcessBackward(g, edges).midpoint == edges[i].src
    decreases |edges|
  {
    if edges == [] {
      assert edges[..0] == [];
    } else if i == 0 {
      assert edges[..1] == [edges[0]];
    } else {
      var e, rest := edges[0], edges[1..];
      var g1 := g.(backward := Visit(g.backward, e.dst, e.src));
      var f := InsertAll(g1.backward, rest[..Processed(i - 1, |rest|)]);
      assert && ProcessBackward(g1, rest).graph == g1.(backward := f)
             && (ProcessBackward(g1, rest).Met? <==> i - 1 < |rest|)
             && (i - 1 < |rest| ==> ProcessBackward(g1, rest).midpoint == rest[i - 1].src)
      by {
        forall j | 0 <= j < i - 1
          ensures rest[j].src !in g1.forward.visited
        {
          assert rest[j] == edges[j + 1];
        }
        ProcessBackwardAt(g1, rest, i - 1);
      }
      assert InsertAll(g.backward, edges[..Processed(i, |edges|)]) == f by {
        InsertAllPrefix(g.backward, edges, Processed(i, |edges|));
      }
      assert ProcessBackward(g, edges) == ProcessBackward(g1, rest) by {
        assert CheckBackward(g, e.dst, e.src) == Checked(g1, false);
      }
    }
  }

  /**
   * The backward edge loop is an early-exit run of inserts: it stops right
   * after the first edge whose linking page the forward side has visited.
   */
  lemma ProcessBackwardSpec(g: PageGraph, edges: seq<Edge>)
    ensures ProcessBackward(g, edges).graph == g.(backward := InsertAll(g.backward, edges[..Processed(FirstIn(Srcs(edges), g.forward.visited.Keys), |edges|)]))
    ensures ProcessBackward(g, edges).Met? <==> FirstIn(Srcs(edges), g.forward.visited.Keys) < |edges|
    ensures FirstIn(Srcs(edges), g.forward.visited.Keys) < |edges| ==> ProcessBackward(g, edges).midpoint == edges[FirstIn(Srcs(edges), g.forward.visited.Keys)].src
  {
    ProcessBackwardAt(g, edges, FirstIn(Srcs(edges), g.forward.visited.Keys));
  }

  /**
   * A forward layer that meets nothing: the next queue is exactly the titles
   * first seen in this layer that were not visited before, each once, in
   * first-seen order; the backward side is untouched.
   */
  lemma ForwardLayerNoHit(g: PageGraph, edges: seq<Edge>)
    requires forall i :: 0 <= i < |edges| ==> edges[i].dst !in g.backward.visited
    ensures var r := ForwardLayer(g, edges);
      && r.Continue?
      && r.graph.backward == g.backward
      && Explored(g.forward.visited, [], edges, r.graph.forward)
      && Distinct(r.graph.forward.queue)
      && (forall x :: x in r.graph.forward.queue <==> x in Dsts(edges) && x !in g.forward.visited)
  {
    var g0 := g.(forward := g.forward.(queue := []));
    ProcessForwardSpec(g0, edges);
    assert edges[..|edges|] == edges;
    InsertAllSpec(g0.forward, edges);
    FirstSeenSpec(g.forward.visited.Keys, Dsts(edges));
  }

  /**
   * A forward layer that meets the backward side stops at the first edge
   * whose linked page the backward side has visited and returns that page;
   * only the edges up to that one have been inserted.
   */
  lemma ForwardLayerHit(g: PageGraph, edges: seq<Edge>, j: nat)
    requires j < |edges| && edges[j].dst in g.backward.visited
    ensures FirstIn(Dsts(edges), g.backward.visited.Keys) <= j
    ensures forall k :: 0 <= k < FirstIn(Dsts(edges), g.backward.visited.Keys) ==> edges[k].dst !in g.backward.visited
    ensures ForwardLayer(g, edges).Met?
    ensures ForwardLayer(g, edges).midpoint == edges[FirstIn(Dsts(edges), g.backward.visited.Keys)].dst
    ensures ForwardLayer(g, edges).midpoint in g.backward.visited
    ensures ForwardLayer(g, edges).graph
         == g.(forward := InsertAll(g.forward.(queue := []), edges[..FirstIn(Dsts(edges), g.backward.visited.Keys) + 1]))
  {
    var g0 := g.(forward := g.forward.(queue := []));
    var ds := Dsts(edges);
    var i := FirstIn(Dsts(edges), g.backward.visited.Keys);
    assert i <= j && i < |edges| && edges[i].dst in g.backward.visited by {
      assert ds[j] == edges[j].dst;
      assert ds[i] == edges[i].dst;
    }
    assert forall k :: 0 <= k < i ==> edges[k].dst !in g.backward.visited by {
      assert forall k :: 0 <= k < i ==> ds[k] == edges[k].dst;
    }
    ProcessForwardAt(g0, edges, i);
  }


  /**
   * A backward layer that meets nothing: the next queue is exactly the
   * linked titles first seen in this layer that were not visited before,
   * each once, in first-seen order; the forward side is untouched.
   */
  lemma BackwardLayerNoHit(g: PageGraph, edges: seq<Edge>)
    requires forall i :: 0 <= i < |edges| ==> edges[i].src !in g.forward.visited
    ensures var r := BackwardLayer(g, edges);
      && r.Continue?
      && r.graph.forward == g.forward
      && Explored(g.backward.visited, [], edges, r.graph.backward)
      && Distinct(r.graph.backward.queue)
      && (forall x :: x in r.graph.backward.queue <==> x in Dsts(edges) && x !in g.backward.visited)
  {
    var g0 := g.(backward := g.backward.(queue := []));
    ProcessBackwardSpec(g0, edges);
    assert edges[..|edges|] == edges;
    InsertAllSpec(g0.backward, edges);
    FirstSeenSpec(g.backward.visited.Keys, Dsts(edges));
  }

  /**
   * A backward layer that meets the forward side stops at the first edge
   * whose linking page the forward side has visited and returns that
   * linking page, whatever the linked page was.
   */
  lemma BackwardLayerHit(g: PageGraph, edges: seq<Edge>, j: nat)
    requires j < |edges| && edges[j].src in g.forward.visited
    ensures FirstIn(Srcs(edges), g.forward.visited.Keys) <= j
    ensures forall k :: 0 <= k < FirstIn(Srcs(edges), g.forward.visited.Keys) ==> edges[k].src !in g.forward.visited
    ensures BackwardLayer(g, edges).Met?
    ensures BackwardLayer(g, edges).midpoint == edges[FirstIn(Srcs(edges), g.forward.visited.Keys)].src
    ensures BackwardLayer(g, edges).midpoint in g.forward.visited
    ensures BackwardLayer(g, edges).graph
         == g.(backward := InsertAll(g.backward.(queue := []), edges[..FirstIn(Srcs(edges), g.forward.visited.Keys) + 1]))
  {
    var g0 := g.(backward := g.backward.(queue := []));
    var ss := Srcs(edges);
    var i := FirstIn(Srcs(edges), g.forward.visited.Keys);
    assert i <= j && i < |edges| && edges[i].src in g.forward.visited by {
      assert ss[j] == edges[j].src;
      assert ss[i] == edges[i].src;
    }
    assert forall k :: 0 <= k < i ==> edges[k].src !in g.forward.visited by {
      assert forall k :: 0 <= k < i ==> ss[k] == edges[k].src;
    }
    ProcessBackwardAt(g0, edges, i);
  }


  /**
   * A forward layer over edges from the queued pages keeps the forward side
   * valid, and a midpoint it reports is visited on both sides.
   */
  lemma ForwardLayerValid(g: PageGraph, edges: seq<Edge>)
    requires Valid(g.forward)
    requires FromPages(edges, g.forward.queue)
    ensures var r := ForwardLayer(g, edges);
      && Valid(r.graph.forward)
      && r.graph.backward == g.backward
      && (r.Met? ==> r.midpoint in r.graph.forward.visited && r.midpoint in r.graph.backward.visited)
  {
    var g0 := g.(forward := g.forward.(queue := []));
    ProcessForwardSpec(g0, edges);
    var i := FirstIn(Dsts(edges), g.backward.visited.Keys);
    var pre := edges[..Processed(i, |edges|)];
    InsertAllValid(g0.forward, pre);
    if i < |edges| {
      assert edges[i].dst in g.backward.visited by {
        assert Dsts(edges)[i] == edges[i].dst;
      }
      InsertAllHas(g0.forward, pre, i);
    }
  }

  /**
   * A backward layer over edges from the queued pages keeps the backward
   * side valid, and a midpoint it reports is visited on both sides.
   */
  lemma BackwardLayerValid(g: PageGraph, edges: seq<Edge>)
    requires Valid(g.backward)
    requires FromPages(edges, g.backward.queue)
    ensures var r := BackwardLayer(g, edges);
      && Valid(r.graph.backward)
      && r.graph.forward == g.forward
      && (r.Met? ==> r.midpoint in r.graph.forward.visited && r.midpoint in r.graph.backward.visited)
  {
    var g0 := g.(backward := g.backward.(queue := []));
    ProcessBackwardSpec(g0, edges);
    var i := FirstIn(Srcs(edges), g.forward.visited.Keys);
    var pre := edges[..Processed(i, |edges|)];
    InsertAllValid(g0.backward, pre);
    if i < |edges| {
      assert edges[i].src in g.forward.visited by {
        assert Srcs(edges)[i] == edges[i].src;
      }
      assert edges[i].src in g.backward.visited by {
        assert edges[i].src in g.backward.queue;
      }
      InsertAllKeeps(g0.backward, pre, edges[i].src);
    }
  }
}

=== FILE: links.dfy ===
/**
 * The `Links` adjacency lists and the decoding of one link-query response
 * (links/links.go:268-391): `Links.add` filters boring and self-referential
 * links, `extractLinks` collects every page's link list through `add`, and
 * `extractContinue` picks the continuation token.
 *
 * The response is taken as already decoded from JSON: a datatype whose
 * shape stands for the type assertions `extractLinks` makes, so a response
 * those assertions would reject cannot be written down. The regular
 * expression of boring titles is a predicate parameter.
 */
module LinkSets {
  import opened Wrappers
  import opened VisitedMaps

  /** `Links`: a page title and the titles it links to, in arrival order. */
  type Links = map<Title, seq<Title>>

  /** The list recorded for `t`, empty when there is none. */
  function LinksOf(pl: Links, t: Title): seq<Title>
  {
    if t in pl then pl[t] else []
  }

  /** `add` keeps a link when neither end is boring and it is not a self-link. */
  predicate Interesting(boring: Title -> bool, from: Title, to: Title)
  {
    !boring(from) && !boring(to) && from != to
  }

  /** Every recorded list is non-empty and holds only interesting links. */
  ghost predicate Filtered(pl: Links, boring: Title -> bool)
  {
    forall t :: t in pl ==>
      && pl[t] != []
      && forall j :: 0 <= j < |pl[t]| ==> Interesting(boring, t, pl[t][j])
  }

  /**
   * `Links.add(from, to)`: an uninteresting link leaves the lists alone;
   * otherwise `to` is appended to the list of `from` (created if absent),
   * duplicates included, and every other list is untouched.
   */
  function Add(pl: Links, from: Title, to: Title, boring: Title -> bool): (r: Links)
    ensures !Interesting(boring, from, to) ==> r == pl
    ensures Interesting(boring, from, to) ==> from in r && r[from] == LinksOf(pl, from) + [to]
    ensures forall k :: k != from ==> (k in r <==> k in pl)
    ensures forall k :: k != from && k in pl ==> r[k] == pl[k]
  {
    if boring(from) || boring(to) then pl
    else if from == to then pl
    else pl[from := LinksOf(pl, from) + [to]]
  }

  /** `add` keeps every list non-empty and interesting. */
  lemma AddFiltered(pl: Links, from: Title, to: Title, boring: Title -> bool)
    requires Filtered(pl, boring)
    ensures Filtered(Add(pl, from, to, boring), boring)
  {
    var r := Add(pl, from, to, boring);
    if Interesting(boring, from, to) {
      var l := LinksOf(pl, from) + [to];
      assert forall j :: 0 <= j < |l| ==> Interesting(boring, from, l[j]);
    }
  }

  /** Reference filter: the links of page `from` that survive `add`, in order. */
  function Kept(boring: Title -> bool, from: Title, tos: seq<Title>): seq<Title>
    decreases |tos|
  {
    if tos == [] then []
    else (if Interesting(boring, from, tos[0]) then [tos[0]] else []) + Kept(boring, from, tos[1..])
  }

  /**
   * The inner loop of `extractLinks`: `add` each link of one page. The page
   * gains exactly its kept links at the end of its list, gets a key only
   * when some link is kept, and no other page changes.
   */
  function AddAll(pl: Links, from: Title, tos: seq<Title>, boring: Title -> bool): (r: Links)
    ensures LinksOf(r, from) == LinksOf(pl, from) + Kept(boring, from, tos)
    ensures from in r <==> from in pl || Kept(boring, from, tos) != []
    ensures forall k :: k != from ==> (k in r <==> k in pl)
    ensures forall k :: k != from && k in pl ==> r[k] == pl[k]
    decreases |tos|
  {
    if tos == [] then pl
    else
      var pl1 := Add(pl, from, tos[0], boring);
      var head := if Interesting(boring, from, tos[0]) then [tos[0]] else [];
      assert LinksOf(pl1, from) == LinksOf(pl, from) + head;
      assert LinksOf(pl, from) + head + Kept(boring, from, tos[1..])
          == LinksOf(pl, from) + Kept(boring, from, tos);
      AddAll(pl1, from, tos[1..], boring)
  }

  /** Adding a page's links keeps every list non-empty and interesting. */
  lemma {:induction false} AddAllFiltered(pl: Links, from: Title, tos: seq<Title>, boring: Title -> bool)
    requires Filtered(pl, boring)
    ensures Filtered(AddAll(pl, from, tos, boring), boring)
    decreases |tos|
  {
    if tos != [] {
      AddFiltered(pl, from, tos[0], boring);
      AddAllFiltered(Add(pl, from, tos[0], boring), from, tos[1..], boring);
    }
  }

  /** One page of a decoded response: its title and its list-valued properties. */
  datatype Page = Page(title: Title, props: map<string, seq<Title>>)

  /** A decoded response: the optional `continue` object and the pages, in iteration order. */
  datatype Response = Response(cont: Option<map<string, string>>, pages: seq<Page>)

  /** The decoded fields of `linksResponse`. */
  datatype LinksResponse = LinksResponse(cont: string, links: Links)

  /**
   * `extractContinue(data, subkey)`: `data["continue"][subkey]` when both
   * levels are present, the empty string otherwise.
   */
  function ExtractContinue(resp: Response, subkey: string): (r: string)
    ensures resp.cont.Some? && subkey in resp.cont.value ==> r == resp.cont.value[subkey]
    ensures resp.cont.None? || subkey !in resp.cont.value ==> r == ""
  {
    match resp.cont
    case Some(c) => if subkey in c then c[subkey] else ""
    case None => ""
  }

  /** The `subkey` list of a page, empty when the page has none. */
  function PropOf(p: Page, subkey: string): seq<Title>
  {
    if subkey in p.props then p.props[subkey] else []
  }

  /** The loop of `extractLinks` over pages, from lists `pl`. */
  function ExtractPages(pl: Links, pages: seq<Page>, subkey: string, boring: Title -> bool): Links
    decreases |pages|
  {
    if pages == [] then pl
    else
      var p := pages[0];
      var pl' := if subkey in p.props then AddAll(pl, p.title, p.props[subkey], boring) else pl;
      ExtractPages(pl', pages[1..], subkey, boring)
  }

  /**
   * `extractLinks(data, subkey)`: no recorded link has a boring end or is
   * a self-link, and no recorded list is empty.
   */
  function ExtractLinks(resp: Response, subkey: string, boring: Title -> bool): (r: Links)
    ensures Filtered(r, boring)
  {
    ExtractPagesFiltered(map[], resp.pages, subkey, boring);
    ExtractPages(map[], resp.pages, subkey, boring)
  }

  /** `linksResponse.UnmarshalJSON` on an already decoded response. */
  function Decode(resp: Response, prefix: string, prop: string, boring: Title -> bool): LinksResponse
  {
    LinksResponse(ExtractContinue(resp, prefix + "continue"), ExtractLinks(resp, prop, boring))
  }

  /** Extraction keeps lists filtered. */
  lemma {:induction false} ExtractPagesFiltered(pl: Links, pages: seq<Page>, subkey: string, boring: Title -> bool)
    requires Filtered(pl, boring)
    ensures Filtered(ExtractPages(pl, pages, subkey, boring), boring)
    decreases |pages|
  {
    if pages != [] {
      var p := pages[0];
      if subkey in p.props {
        AddAllFiltered(pl, p.title, p.props[subkey], boring);
      }
      var pl' := if subkey in p.props then AddAll(pl, p.title, p.props[subkey], boring) else pl;
      ExtractPagesFiltered(pl', pages[1..], subkey, boring);
    }
  }

  /** Reference: the kept links of every page titled `t`, in page order. */
  function LinksFor(pages: seq<Page>, subkey: string, boring: Title -> bool, t: Title): seq<Title>
    decreases |pages|
  {
    if pages == [] then []
    else (if pages[0].title == t then Kept(boring, t, PropOf(pages[0], subkey)) else [])
         + LinksFor(pages[1..], subkey, boring, t)
  }

  /**
   * Extraction appends, for each title, the kept links of the pages with
   * that title, and adds a key exactly for titles that gain a link.
   */
  lemma {:induction false} ExtractPagesSpec(pl: Links, pages: seq<Page>, subkey: string, boring: Title -> bool, t: Title)
    ensures var r := ExtractPages(pl, pages, subkey, boring);
      && LinksOf(r, t) == LinksOf(pl, t) + LinksFor(pages, subkey, boring, t)
      && (t in r <==> t in pl || LinksFor(pages, subkey, boring, t) != [])
    decreases |pages|
  {
    if pages != [] {
      var p := pages[0];
      var pl' := if subkey in p.props then AddAll(pl, p.title, p.props[subkey], boring) else pl;
      assert ExtractPages(pl, pages, subkey, boring) == ExtractPages(pl', pages[1..], subkey, boring);
      ExtractPagesSpec(pl', pages[1..], subkey, boring, t);
      var own := if p.title == t then Kept(boring, t, PropOf(p, subkey)) else [];
      PageStep(pl, p, subkey, boring, t);
      assert LinksFor(pages, subkey, boring, t) == own + LinksFor(pages[1..], subkey, boring, t);
    }
  }

  /** One page adds its kept links to its own title and nothing to others. */
  lemma PageStep(pl: Links, p: Page, subkey: string, boring: Title -> bool, t: Title)
    ensures var pl' := if subkey in p.props then AddAll(pl, p.title, p.props[subkey], boring) else pl;
      var own := if p.title == t then Kept(boring, t, PropOf(p, subkey)) else [];
      && LinksOf(pl', t) == LinksOf(pl, t) + own
      && (t in pl' <==> t in pl || own != [])
  {
    if subkey !in p.props {
      assert Kept(boring, p.title, []) == [];
    }
  }

  /** With one page titled `t`, the other pages contribute nothing to `t`. */
  lemma {:induction false} LinksForUnique(pages: seq<Page>, subkey: string, boring: Title -> bool, i: nat)
    requires i < |pages|
    requires forall j :: 0 <= j < |pages| && j != i ==> pages[j].title != pages[i].title
    ensures LinksFor(pages, subkey, boring, pages[i].title) == Kept(boring, pages[i].title, PropOf(pages[i], subkey))
    decreases |pages|
  {
    var t := pages[i].title;
    if i == 0 {
      LinksForAbsent(pages[1..], subkey, boring, t);
    } else {
      LinksForUnique(pages[1..], subkey, boring, i - 1);
    }
  }

  /** Pages with other titles contribute nothing to `t`. */
  lemma {:induction false} LinksForAbsent(pages: seq<Page>, subkey: string, boring: Title -> bool, t: Title)
    requires forall j :: 0 <= j < |pages| ==> pages[j].title != t
    ensures LinksFor(pages, subkey, boring, t) == []
    decreases |pages|
  {
    if pages != [] {
      LinksForAbsent(pages[1..], subkey, boring, t);
    }
  }

  /**
   * Per page, when page titles are distinct: a page without the `subkey`
   * list (or whose links are all filtered out) contributes no key, and a
   * page with links gets exactly its kept links, in response order.
   */
  lemma ExtractLinksPage(resp: Response, subkey: string, boring: Title -> bool, i: nat)
    requires i < |resp.pages|
    requires forall j :: 0 <= j < |resp.pages| && j != i ==> resp.pages[j].title != resp.pages[i].title
    ensures var r := ExtractLinks(resp, subkey, boring);
      var p := resp.pages[i];
      && LinksOf(r, p.title) == Kept(boring, p.title, PropOf(p, subkey))
      && (p.title in r <==> Kept(boring, p.title, PropOf(p, subkey)) != [])
      && (subkey !in p.props ==> p.title !in r)
  {
    ExtractPagesSpec(map[], resp.pages, subkey, boring, resp.pages[i].title);
    LinksForUnique(resp.pages, subkey, boring, i);
  }

  /** A title that no page carries gets no list. */
  lemma ExtractLinksOnlyPages(resp: Response, subkey: string, boring: Title -> bool, t: Title)
    requires forall j :: 0 <= j < |resp.pages| ==> resp.pages[j].title != t
    ensures t !in ExtractLinks(resp, subkey, boring)
  {
    ExtractPagesSpec(map[], resp.pages, subkey, boring, t);
    LinksForAbsent(resp.pages, subkey, boring, t);
  }

  /** No two pages share a title. */
  predicate DistinctTitles(pages: seq<Page>)
  {
    forall i, j :: 0 <= i < j < |pages| ==> pages[i].title != pages[j].title
  }

  /**
   * The pages arrive in Go map order, which is unspecified: with distinct
   * titles, any order of the same pages yields the same lists.
   */
  lemma ExtractLinksOrderFree(a: Response, b: Response, subkey: string, boring: Title -> bool)
    requires multiset(a.pages) == multiset(b.pages)
    requires DistinctTitles(a.pages) && DistinctTitles(b.pages)
    ensures ExtractLinks(a, subkey, boring) == ExtractLinks(b, subkey, boring)
  {
    var ra, rb := ExtractLinks(a, subkey, boring), ExtractLinks(b, subkey, boring);
    forall t
      ensures LinksOf(ra, t) == LinksOf(rb, t) && (t in ra <==> t in rb)
    {
      if i :| 0 <= i < |a.pages| && a.pages[i].title == t {
        assert a.pages[i] in multiset(b.pages);
        var k :| 0 <= k < |b.pages| && b.pages[k] == a.pages[i];
        ExtractLinksPage(a, subkey, boring, i);
        ExtractLinksPage(b, subkey, boring, k);
      } else {
        forall k | 0 <= k < |b.pages|
          ensures b.pages[k].title != t
        {
          assert b.pages[k] in multiset(a.pages);
        }
        ExtractLinksOnlyPages(a, subkey, boring, t);
        ExtractLinksOnlyPages(b, subkey, boring, t);
      }
    }
    assert ra.Keys == rb.Keys;
  }

  /** The links of Mike Tyson in `TestLinksResponse_UnmarshalJSON` of links/links_test.go. */
  const TysonLinks: seq<Title> := ["1984 Summer Olympics", "20/20 (US television show)", "2009 Golden Globe Awards"]

  /** The response of that test: a continuation, a page without links, and Mike Tyson's page. */
  const TysonResponse := Response(
    Some(map["plcontinue" := "39027|0|AAU_Junior_Olympic_Games", "continue" := "||"]),
    [Page("Tryall Golf Club", map[]), Page("Mike Tyson", map["links" := TysonLinks])])

  /** None of the example's titles is boring, so all of Mike Tyson's links are kept. */
  lemma TysonKept(boring: Title -> bool)
    requires !boring("Mike Tyson")
    requires forall j :: 0 <= j < |TysonLinks| ==> !boring(TysonLinks[j])
    ensures Kept(boring, "Mike Tyson", TysonLinks) == TysonLinks
  {
    var t := TysonLinks;
    assert t[1..][1..][1..] == [];
    assert t[1..][1..] == ["2009 Golden Globe Awards"];
    assert t[1..] == ["20/20 (US television show)", "2009 Golden Globe Awards"];
  }

  /** The example's link lists: Mike Tyson's three links, and no entry for the other page. */
  lemma TysonLinksExtracted(boring: Title -> bool)
    requires !boring("Mike Tyson")
    requires forall j :: 0 <= j < |TysonLinks| ==> !boring(TysonLinks[j])
    ensures ExtractLinks(TysonResponse, "links", boring) == map["Mike Tyson" := TysonLinks]
  {
    var resp := TysonResponse;
    var r := ExtractLinks(resp, "links", boring);
    TysonKept(boring);
    ExtractLinksPage(resp, "links", boring, 1);
    ExtractLinksPage(resp, "links", boring, 0);
    forall t | t in r
      ensures t == "Mike Tyson"
    {
      if t != "Mike Tyson" && t != "Tryall Golf Club" {
        ExtractLinksOnlyPages(resp, "links", boring, t);
      }
    }
  }

  /**
   * `TestLinksResponse_UnmarshalJSON` in links/links_test.go: the `plcontinue` token
   * comes back, the page without links gets no entry, and Mike Tyson gets
   * his three links in order.
   */
  lemma DecodeExample(boring: Title -> bool)
    requires !boring("Mike Tyson")
    requires !boring("1984 Summer Olympics") && !boring("20/20 (US television show)")
    requires !boring("2009 Golden Globe Awards")
    ensures Decode(TysonResponse, "pl", "links", boring)
         == LinksResponse("39027|0|AAU_Junior_Olympic_Games", map["Mike Tyson" := TysonLinks])
  {
    assert ExtractContinue(TysonResponse, "pl" + "continue") == "39027|0|AAU_Junior_Olympic_Games" by {
      assert "pl" + "continue" == "plcontinue";
    }
    TysonLinksExtracted(boring);
  }
}

=== FILE: paths.dfy ===
/**
 * Path reconstruction from a midpoint (`path`, links/links.go:111-139 and
 * wikiracer.go:84-112): walk the forward predecessors from the midpoint,
 * reverse that list and drop the midpoint, then append the walk of the
 * backward predecessors from the midpoint.
 */
module Paths {
  import opened Seqs
  import opened VisitedMaps
  import opened Graph

  /** The in-place swap loop of `path`, run on a local copy. */
  method SwapReverse<T>(s: seq<T>) returns (r: seq<T>)
    ensures r == Reverse(s)
  {
    r := s;
    var n := |r|;
    var i := 0;
    while i < n / 2
      invariant 0 <= i <= n / 2
      invariant |r| == n
      invariant forall k :: 0 <= k < i ==> r[k] == s[n - 1 - k] && r[n - 1 - k] == s[k]
      invariant forall k :: i <= k < n - i ==> r[k] == s[k]
    {
      var swap := n - i - 1;
      r := r[i := r[swap]][swap := r[i]];
      i := i + 1;
    }
  }

  /**
   * The path `path` builds: the forward chain from the midpoint reversed
   * without its last element (the midpoint), then the backward chain.
   */
  function JoinedPath(fw: PredMap, bw: PredMap, midpoint: Title): seq<Title>
    requires midpoint != ""
    requires WalkEnds(fw, midpoint) && WalkEnds(bw, midpoint)
  {
    ChainShape(fw, midpoint);
    var fc := Chain(fw, midpoint);
    Reverse(fc)[..|fc| - 1] + Chain(bw, midpoint)
  }

  /**
   * One walk loop of `path`: append `t` and its predecessors to `prefix`
   * until the empty title is read.
   */
  method AppendWalk(m: PredMap, t: Title, prefix: seq<Title>) returns (path: seq<Title>)
    requires WalkEnds(m, t)
    ensures path == prefix + Chain(m, t)
  {
    ghost var c := Chain(m, t);
    ChainShape(m, t);
    path := prefix;
    var ptr := t;
    while ptr != ""
      invariant |prefix| <= |path| <= |prefix| + |c|
      invariant path == prefix + c[..|path| - |prefix|]
      invariant ptr == if |path| - |prefix| < |c| then c[|path| - |prefix|] else ""
      decreases |prefix| + |c| - |path|
    {
      path := path + [ptr];
      ptr := Get(m, ptr);
    }
    assert c[..|path| - |prefix|] == c;
  }

  /**
   * `path(midpoint)`. The Go code slices `path[0:len(path)-1]`, which
   * panics on an empty midpoint, and loops forever on a predecessor cycle;
   * both are excluded by the precondition.
   */
  method Path(g: PageGraph, midpoint: Title) returns (path: seq<Title>)
    requires midpoint != ""
    requires WalkEnds(g.forward.visited, midpoint) && WalkEnds(g.backward.visited, midpoint)
    ensures path == JoinedPath(g.forward.visited, g.backward.visited, midpoint)
  {
    ChainShape(g.forward.visited, midpoint);
    path := AppendWalk(g.forward.visited, midpoint, []);
    assert path == Chain(g.forward.visited, midpoint);
    path := SwapReverse(path);
    path := path[0..|path| - 1];
    path := AppendWalk(g.backward.visited, midpoint, path);
  }

  /** Where each title of the reconstructed path comes from. */
  lemma PathIndex(fw: PredMap, bw: PredMap, midpoint: Title)
    requires midpoint != ""
    requires WalkEnds(fw, midpoint) && WalkEnds(bw, midpoint)
    ensures var fc, bc := Chain(fw, midpoint), Chain(bw, midpoint);
      var p := JoinedPath(fw, bw, midpoint);
      && |fc| >= 1 && |bc| >= 1
      && |p| == |fc| + |bc| - 1
      && (forall i :: 0 <= i < |fc| - 1 ==> p[i] == fc[|fc| - 1 - i])
      && (forall i :: |fc| - 1 <= i < |p| ==> p[i] == bc[i - (|fc| - 1)])
  {
    ChainShape(fw, midpoint);
    ChainShape(bw, midpoint);
    var fc, bc := Chain(fw, midpoint), Chain(bw, midpoint);
    var rf := Reverse(fc);
    assert JoinedPath(fw, bw, midpoint) == rf[..|fc| - 1] + bc;
  }

  /** Up to the midpoint, each title of the path is the forward predecessor of the next. */
  lemma PathForwardSteps(fw: PredMap, bw: PredMap, midpoint: Title)
    requires midpoint != ""
    requires WalkEnds(fw, midpoint) && WalkEnds(bw, midpoint)
    ensures var fc := Chain(fw, midpoint);
      var p := JoinedPath(fw, bw, midpoint);
      && |fc| >= 1 && |fc| <= |p|
      && p[|fc| - 1] == midpoint
      && Get(fw, p[0]) == ""
      && (forall i :: 0 <= i < |fc| - 1 ==> Get(fw, p[i + 1]) == p[i])
  {
    PathIndex(fw, bw, midpoint);
    ChainShape(fw, midpoint);
    ChainShape(bw, midpoint);
    var fc := Chain(fw, midpoint);
    var p := JoinedPath(fw, bw, midpoint);
    var n := |fc|;
    assert p[n - 1] == midpoint;
    forall i | 0 <= i < n - 1
      ensures Get(fw, p[i + 1]) == p[i]
    {
      assert p[i] == fc[n - 1 - i];
      if i + 1 < n - 1 {
        assert p[i + 1] == fc[n - 2 - i];
      }
    }
    if n > 1 {
      assert p[0] == fc[n - 1];
    }
  }

  /** From the midpoint on, each title of the path has the next as backward predecessor. */
  lemma PathBackwardSteps(fw: PredMap, bw: PredMap, midpoint: Title)
    requires midpoint != ""
    requires WalkEnds(fw, midpoint) && WalkEnds(bw, midpoint)
    ensures var fc := Chain(fw, midpoint);
      var p := JoinedPath(fw, bw, midpoint);
      && |fc| >= 1 && |fc| <= |p|
      && Get(bw, p[|p| - 1]) == ""
      && (forall i :: |fc| - 1 <= i < |p| - 1 ==> Get(bw, p[i]) == p[i + 1])
  {
    PathIndex(fw, bw, midpoint);
    ChainShape(bw, midpoint);
    var fc, bc := Chain(fw, midpoint), Chain(bw, midpoint);
    var p := JoinedPath(fw, bw, midpoint);
    var n := |fc|;
    forall i | n - 1 <= i < |p| - 1
      ensures Get(bw, p[i]) == p[i + 1]
    {
      assert p[i] == bc[i - (n - 1)];
      assert p[i + 1] == bc[i + 1 - (n - 1)];
    }
    assert p[|p| - 1] == bc[|bc| - 1];
  }

  /**
   * The reconstructed path is one chain of recorded discoveries: it starts
   * at a title without forward predecessor, each step up to the midpoint
   * follows a forward predecessor link, each step after it follows a
   * backward predecessor link, it ends at a title without backward
   * predecessor, and its length is |forward chain| + |backward chain| - 1.
   */
  lemma PathShape(fw: PredMap, bw: PredMap, midpoint: Title)
    requires midpoint != ""
    requires WalkEnds(fw, midpoint) && WalkEnds(bw, midpoint)
    ensures var fc, bc := Chain(fw, midpoint), Chain(bw, midpoint);
      var p := JoinedPath(fw, bw, midpoint);
      && |fc| >= 1 && |bc| >= 1
      && |p| == |fc| + |bc| - 1
      && p[|fc| - 1] == midpoint
      && Get(fw, p[0]) == ""
      && Get(bw, p[|p| - 1]) == ""
      && (forall i :: 0 <= i < |fc| - 1 ==> Get(fw, p[i + 1]) == p[i])
      && (forall i :: |fc| - 1 <= i < |p| - 1 ==> Get(bw, p[i]) == p[i + 1])
  {
    PathIndex(fw, bw, midpoint);
    PathForwardSteps(fw, bw, midpoint);
    PathBackwardSteps(fw, bw, midpoint);
  }

  /**
   * A midpoint visited by both valid sides yields a path that runs from
   * the forward root (the search source) to the backward root (the
   * search target).
   */
  lemma PathBetweenRoots(g: PageGraph, midpoint: Title)
    requires Valid(g.forward) && Valid(g.backward)
    requires midpoint in g.forward.visited && midpoint in g.backward.visited
    ensures midpoint != ""
    ensures WalkEnds(g.forward.visited, midpoint) && WalkEnds(g.backward.visited, midpoint)
    ensures var p := JoinedPath(g.forward.visited, g.backward.visited, midpoint);
      && |p| >= 1
      && p[0] in g.forward.visited && g.forward.visited[p[0]] == ""
      && p[|p| - 1] in g.backward.visited && g.backward.visited[p[|p| - 1]] == ""
  {
    var fw, bw := g.forward.visited, g.backward.visited;
    assert WalkEnds(fw, midpoint) && WalkEnds(bw, midpoint);
    var fc, bc := Chain(fw, midpoint), Chain(bw, midpoint);
    var p := JoinedPath(fw, bw, midpoint);
    assert |p| >= 1 && p[0] in fc && Get(fw, p[0]) == "" by {
      PathIndex(fw, bw, midpoint);
      PathForwardSteps(fw, bw, midpoint);
      if |fc| > 1 {
        assert p[0] == fc[|fc| - 1];
      } else {
        ChainShape(fw, midpoint);
        ChainShape(bw, midpoint);
        assert p[0] == bc[0] == midpoint == fc[0];
      }
    }
    assert p[|p| - 1] in bc && Get(bw, p[|p| - 1]) == "" by {
      PathIndex(fw, bw, midpoint);
      PathBackwardSteps(fw, bw, midpoint);
      assert p[|p| - 1] == bc[|bc| - 1];
    }
    assert p[0] in fw by {
      WalkInKeys(fw, midpoint, |fw| + 1);
    }
    assert p[|p| - 1] in bw by {
      WalkInKeys(bw, midpoint, |bw| + 1);
    }
  }

  /** A three-title chain `c`, `b`, `a` ending at a root. */
  lemma ThreeChain(m: PredMap, a: Title, b: Title, c: Title)
    requires a != "" && b != "" && c != ""
    requires |m| == 3 && a in m && b in m && c in m
    requires m[a] == "" && m[b] == a && m[c] == b
    ensures WalkEnds(m, c) && Chain(m, c) == [c, b, a]
  {
    var none: seq<Title> := [];
    assert [a] + none == [a];
    assert [b] + [a] == [b, a];
    assert [c] + [b, a] == [c, b, a];
    WalkStep(m, a, 2, none);
    WalkStep(m, b, 3, [a]);
    WalkStep(m, c, 4, [b, a]);
  }

  /**
   * The documented example: forward {A: "", B: A, M: B}, backward
   * {D: "", C: D, M: C}, midpoint M gives A, B, M, C, D.
   */
  lemma PathExample()
    ensures var fw := map["A" := "", "B" := "A", "M" := "B"];
      var bw := map["D" := "", "C" := "D", "M" := "C"];
      && WalkEnds(fw, "M") && WalkEnds(bw, "M")
      && JoinedPath(fw, bw, "M") == ["A", "B", "M", "C", "D"]
  {
    var fw := map["A" := "", "B" := "A", "M" := "B"];
    var bw := map["D" := "", "C" := "D", "M" := "C"];
    assert fw.Keys == {"A", "B", "M"};
    assert bw.Keys == {"D", "C", "M"};
    ThreeChain(fw, "A", "B", "M");
    ThreeChain(bw, "D", "C", "M");
    var fc: seq<Title> := ["M", "B", "A"];
    assert Reverse(fc) == ["A", "B", "M"];
    assert Reverse(fc)[..2] + ["M", "C", "D"] == ["A", "B", "M", "C", "D"];
  }

  /** A midpoint neither side has visited comes back as the one-title path. */
  lemma PathUnvisitedMidpoint(fw: PredMap, bw: PredMap, midpoint: Title)
    requires midpoint != "" && midpoint !in fw && midpoint !in bw
    ensures WalkEnds(fw, midpoint) && WalkEnds(bw, midpoint)
    ensures JoinedPath(fw, bw, midpoint) == [midpoint]
  {
    WalkStep(fw, midpoint, |fw| + 1, []);
    WalkStep(bw, midpoint, |bw| + 1, []);
    assert [midpoint] + [] == [midpoint];
  }

  /**
   * Searching from a title to itself, once both roots are set up: the first
   * backward check already finds the title on the forward side, so the
   * midpoint is the title itself and the path is that title alone.
   */
  lemma SameTitleMeetsAtOnce(t: Title, edges: seq<Edge>)
    requires t != "" && |edges| > 0
    requires FromPages(edges, [t])
    ensures var g := StartBackward(StartForward(NewPageGraph(), t), t);
      var r := BackwardLayer(g, edges);
      && r.Met? && r.midpoint == t
      && WalkEnds(r.graph.forward.visited, t) && WalkEnds(r.graph.backward.visited, t)
      && JoinedPath(r.graph.forward.visited, r.graph.backward.visited, t) == [t]
  {
    var g := StartBackward(StartForward(NewPageGraph(), t), t);
    StartValid(t, t);
    BackwardLayerHit(g, edges, 0);
    BackwardLayerValid(g, edges);
    var r := BackwardLayer(g, edges);
    assert r.graph.forward.visited == map[t := ""];
    assert r.graph.backward.visited[t] == "";
    var fw, bw := r.graph.forward.visited, r.graph.backward.visited;
    WalkStep(fw, t, |fw| + 1, []);
    WalkStep(bw, t, |bw| + 1, []);
    assert [t] + [] == [t];
  }
}

=== FILE: queries.dfy ===
/**
 * The parameters of one link query (`buildQuery`, links/links.go:232-247).
 * The model stops at the parameter map: URL encoding and the endpoint
 * prefix are left to the caller.
 */
module Queries {
  import opened Seqs
  import opened VisitedMaps
  import opened LinkSets

  /** `url.Values`: each key holds a list of values. */
  type Values = map<string, seq<string>>

  /** The namespaces queried: main, category and portal. */
  const Namespace := "0|14|100"

  /** The values stored under `k`, empty when there are none. */
  function ValuesOf(v: Values, k: string): seq<string>
  {
    if k in v then v[k] else []
  }

  /** `Values.Add`: append `x` to the values of `k`, leaving every other key alone. */
  function AddValue(v: Values, k: string, x: string): (r: Values)
    ensures r.Keys == v.Keys + {k}
    ensures r[k] == ValuesOf(v, k) + [x]
    ensures forall o :: o in v && o != k ==> r[o] == v[o]
  {
    v[k := ValuesOf(v, k) + [x]]
  }

  /** `strings.Join`. */
  function Join(ts: seq<string>, sep: string): string
    decreases |ts|
  {
    if ts == [] then ""
    else if |ts| == 1 then ts[0]
    else ts[0] + sep + Join(ts[1..], sep)
  }

  /** Splitting at every `sep`: how the receiving side reads a joined list. */
  function Split(s: string, sep: char): (r: seq<string>)
    ensures |r| > 0
    decreases |s|
  {
    if sep !in s then [s]
    else
      var i := FirstPos(s, sep);
      [s[..i]] + Split(s[i + 1..], sep)
  }

  /**
   * Joining titles with `|` loses nothing when no title contains `|`:
   * splitting the joined text gives the titles back.
   */
  lemma {:induction false} SplitJoin(ts: seq<string>, sep: char)
    requires |ts| > 0
    requires forall i :: 0 <= i < |ts| ==> sep !in ts[i]
    ensures Split(Join(ts, [sep]), sep) == ts
    decreases |ts|
  {
    if |ts| > 1 {
      var rest := Join(ts[1..], [sep]);
      assert Join(ts, [sep]) == ts[0] + [sep] + rest;
      SplitFirst(ts[0], sep, rest);
      SplitJoin(ts[1..], sep);
      assert ts == [ts[0]] + ts[1..];
    }
  }

  /** Text before the first separator is the first piece; the rest is split on. */
  lemma SplitFirst(a: string, sep: char, b: string)
    requires sep !in a
    ensures Split(a + [sep] + b, sep) == [a] + Split(b, sep)
  {
    var s := a + [sep] + b;
    assert s[|a|] == sep;
    var i := FirstPos(s, sep);
    assert forall j :: 0 <= j < |a| ==> s[j] == a[j];
    assert s[..i] == a;
    assert s[i + 1..] == b;
  }

  /** The parameter names `buildQuery` writes are pairwise different for every prefix. */
  lemma KeysDistinct(prefix: string)
    ensures prefix + "namespace" !in {"action", "format", "prop", "titles"}
    ensures prefix + "limit" !in {"action", "format", "prop", "titles", prefix + "namespace"}
    ensures prefix + "continue" !in {"action", "format", "prop", "titles", prefix + "namespace", prefix + "limit"}
  {
    assert |prefix + "continue"| == |prefix| + 8;
    assert |prefix + "namespace"| == |prefix| + 9;
    assert |prefix + "limit"| == |prefix| + 5;
    if |prefix| == 1 {
      var l := prefix + "limit";
      assert l[4] == 'i' && "action"[4] == 'o' && "format"[4] == 'a' && "titles"[4] == 'e';
    }
  }

  /** The parameters every link query carries, before any continuation token. */
  function QueryBase(prefix: string, prop: string, terms: seq<string>): (v: Values)
    ensures v.Keys == {"action", "format", "prop", "titles", prefix + "namespace", prefix + "limit"}
    ensures v["action"] == ["query"] && v["format"] == ["json"]
    ensures v["prop"] == [prop] && v["titles"] == [Join(terms, "|")]
    ensures v[prefix + "namespace"] == [Namespace] && v[prefix + "limit"] == ["max"]
  {
    KeysDistinct(prefix);
    var base := map["action" := ["query"], "format" := ["json"], "prop" := [prop], "titles" := [Join(terms, "|")]];
    var withNamespace := AddValue(base, prefix + "namespace", Namespace);
    AddValue(withNamespace, prefix + "limit", "max")
  }

  /**
   * `buildQuery(prefix, prop, terms, cont)` as a parameter map: exactly the
   * keys action, format, prop, titles, the prefixed namespace and limit,
   * and the prefixed continue key when (and only when) there is a
   * continuation token, each holding the one value the query sends.
   */
  function QueryParams(prefix: string, prop: string, terms: seq<string>, cont: string): (v: Values)
    ensures v.Keys == {"action", "format", "prop", "titles", prefix + "namespace", prefix + "limit"}
                      + (if |cont| > 0 then {prefix + "continue"} else {})
    ensures v["action"] == ["query"] && v["format"] == ["json"]
    ensures v["prop"] == [prop] && v["titles"] == [Join(terms, "|")]
    ensures v[prefix + "namespace"] == [Namespace] && v[prefix + "limit"] == ["max"]
    ensures |cont| > 0 ==> v[prefix + "continue"] == [cont]
  {
    var base := QueryBase(prefix, prop, terms);
    if |cont| > 0 then
      KeysDistinct(prefix);
      AddValue(base, prefix + "continue", cont)
    else base
  }

  /**
   * The titles of a query come back out of its `titles` parameter when no
   * title contains `|`.
   */
  lemma QueryTitles(prefix: string, prop: string, terms: seq<string>, cont: string)
    requires |terms| > 0
    requires forall i :: 0 <= i < |terms| ==> '|' !in terms[i]
    ensures Split(QueryParams(prefix, prop, terms, cont)["titles"][0], '|') == terms
  {
    SplitJoin(terms, '|');
  }

  /**
   * Pagination: the query that follows a response asks to continue
   * exactly when the response carried a non-empty `<prefix>continue`
   * token, and then passes that token back unchanged.
   */
  lemma NextQuery(resp: Response, prefix: string, prop: string, boring: Title -> bool, terms: seq<string>)
    ensures var token := Decode(resp, prefix, prop, boring).cont;
      var v := QueryParams(prefix, prop, terms, token);
      && (prefix + "continue" in v <==>
            resp.cont.Some? && prefix + "continue" in resp.cont.value && resp.cont.value[prefix + "continue"] != "")
      && (prefix + "continue" in v ==> v[prefix + "continue"] == [resp.cont.value[prefix + "continue"]])
  {
    KeysDistinct(prefix);
  }

  /** `TestBuildQuery` in links/links_test.go. */
  lemma QueryExample()
    ensures var v := QueryParams("xx", "titles", ["foo", "bar"], "abc");
      && v["prop"] == ["titles"]
      && v["titles"] == ["foo|bar"]
      && "xxcontinue" in v && v["xxcontinue"] == ["abc"]
      && "xxlimit" in v && v["xxlimit"] == ["max"]
      && "xxnamespace" in v && v["xxnamespace"] == ["0|14|100"]
  {
    assert "xx" + "continue" == "xxcontinue";
    assert "xx" + "limit" == "xxlimit";
    assert "xx" + "namespace" == "xxnamespace";
    assert Join(["foo", "bar"], "|") == "foo" + "|" + "bar" == "foo|bar" by {
      assert ["foo", "bar"][1..] == ["bar"];
    }
  }
}

=== FILE: search.dfy ===
/**
 * The layer loops of `searchForward` and `searchBackward`
 * (links/links.go:141-163 and 179-201), run on a link oracle, and what a
 * meeting of the two sides gives `path`: a route from the source title to
 * the target title.
 *
 * `links(p)` stands for the links the link source reports for page `p`.
 * The edges one layer checks come from a `Schedule`: `LinksFrom` sends
 * partial mappings as the responses of each batch arrive, and Go ranges
 * over each one in map order, so a page's links may arrive split, with
 * other pages' links in between. A schedule is constrained only to check
 * edges from queued pages (`FromQueue`) or reported links of queued pages
 * (`Sound`), and, where a lemma needs it, to check all of them
 * (`Complete`); `InQueueOrder` is one instance.
 * `fuel` bounds the number of layers.
 */
module Searches {
  import opened Seqs
  import opened VisitedMaps
  import opened Graph
  import opened Paths

  /** The link source never reports the empty title. */
  ghost predicate NoEmptyLinks(links: Title -> seq<Title>)
  {
    forall t :: "" !in links(t)
  }

  /** The links of `p` as edges out of `p`. */
  function Out(p: Title, tos: seq<Title>): (r: seq<Edge>)
    ensures |r| == |tos|
    ensures forall i :: 0 <= i < |r| ==> r[i] == Edge(p, tos[i])
  {
    seq(|tos|, i requires 0 <= i < |tos| => Edge(p, tos[i]))
  }

  /**
   * The edges of one layer: every queued page with each of its links, and
   * nothing else.
   */
  function LayerEdges(pages: seq<Title>, links: Title -> seq<Title>): seq<Edge>
    decreases |pages|
  {
    if pages == [] then []
    else Out(pages[0], links(pages[0])) + LayerEdges(pages[1..], links)
  }

  /** Every edge of a layer joins a queued page to one of its links. */
  lemma {:induction false} LayerEdgesSound(pages: seq<Title>, links: Title -> seq<Title>, i: nat)
    requires i < |LayerEdges(pages, links)|
    ensures LayerEdges(pages, links)[i].src in pages
    ensures LayerEdges(pages, links)[i].dst in links(LayerEdges(pages, links)[i].src)
    decreases |pages|
  {
    var here := Out(pages[0], links(pages[0]));
    var rest := LayerEdges(pages[1..], links);
    assert LayerEdges(pages, links) == here + rest;
    if i >= |here| {
      LayerEdgesSound(pages[1..], links, i - |here|);
      assert LayerEdges(pages, links)[i] == rest[i - |here|];
    }
  }

  /** Every link of every queued page is an edge of the layer. */
  lemma {:induction false} LayerEdgesComplete(pages: seq<Title>, links: Title -> seq<Title>, p: Title, t: Title)
    requires p in pages && t in links(p)
    ensures Edge(p, t) in LayerEdges(pages, links)
    decreases |pages|
  {
    var here := Out(pages[0], links(pages[0]));
    if p == pages[0] {
      var j :| 0 <= j < |links(p)| && links(p)[j] == t;
      assert here[j] == Edge(p, t);
    } else {
      LayerEdgesComplete(pages[1..], links, p, t);
    }
    assert LayerEdges(pages, links) == here + LayerEdges(pages[1..], links);
  }

  /** A layer's edges come from its queued pages and name non-empty titles. */
  lemma LayerFromPages(pages: seq<Title>, links: Title -> seq<Title>)
    requires NoEmptyLinks(links)
    ensures FromPages(LayerEdges(pages, links), pages)
  {
    var edges := LayerEdges(pages, links);
    forall i | 0 <= i < |edges|
      ensures edges[i].src in pages && edges[i].dst != ""
    {
      LayerEdgesSound(pages, links, i);
      assert "" !in links(edges[i].src);
    }
  }

  /**
   * The edges of each layer, as a function of the layer's fuel and its
   * queue. The fuel falls by one per layer, so one schedule can give every
   * layer of a run its own order.
   */
  type Schedule = (nat, seq<Title>) -> seq<Edge>

  /** Every edge joins a queued page to one of its reported links. */
  ghost predicate Reported(edges: seq<Edge>, pages: seq<Title>, links: Title -> seq<Title>)
  {
    forall i :: 0 <= i < |edges| ==> edges[i].src in pages && edges[i].dst in links(edges[i].src)
  }

  /** Every reported link of every queued page is an edge. */
  ghost predicate Covers(edges: seq<Edge>, pages: seq<Title>, links: Title -> seq<Title>)
  {
    forall p, t :: p in pages && t in links(p) ==> Edge(p, t) in edges
  }

  /** Every layer checks only reported links of its queued pages, in any order. */
  ghost predicate Sound(layers: Schedule, links: Title -> seq<Title>)
  {
    forall n, pages :: Reported(layers(n, pages), pages, links)
  }

  /** Every layer checks only edges from its queued pages to non-empty titles. */
  ghost predicate FromQueue(layers: Schedule)
  {
    forall n, pages :: FromPages(layers(n, pages), pages)
  }

  /** Every layer checks every reported link of its queued pages. */
  ghost predicate Complete(layers: Schedule, links: Title -> seq<Title>)
  {
    forall n, pages :: Covers(layers(n, pages), pages, links)
  }

  /** Each queued page's links together, pages in queue order. */
  function InQueueOrder(links: Title -> seq<Title>): Schedule
  {
    (n: nat, pages: seq<Title>) => LayerEdges(pages, links)
  }

  /** Queue order is a sound and complete schedule. */
  lemma InQueueOrderSchedule(links: Title -> seq<Title>)
    ensures Sound(InQueueOrder(links), links)
    ensures Complete(InQueueOrder(links), links)
  {
    var layers := InQueueOrder(links);
    forall n: nat, pages: seq<Title>
      ensures Reported(layers(n, pages), pages, links)
    {
      assert layers(n, pages) == LayerEdges(pages, links);
      forall i | 0 <= i < |LayerEdges(pages, links)|
        ensures LayerEdges(pages, links)[i].src in pages
        ensures LayerEdges(pages, links)[i].dst in links(LayerEdges(pages, links)[i].src)
      {
        LayerEdgesSound(pages, links, i);
      }
    }
    forall n: nat, pages: seq<Title>
      ensures Covers(layers(n, pages), pages, links)
    {
      assert layers(n, pages) == LayerEdges(pages, links);
      forall p, t | p in pages && t in links(p)
        ensures Edge(p, t) in LayerEdges(pages, links)
      {
        LayerEdgesComplete(pages, links, p, t);
      }
    }
  }

  /** Reported edges come from the queued pages and name non-empty titles. */
  lemma ReportedFromPages(edges: seq<Edge>, pages: seq<Title>, links: Title -> seq<Title>)
    requires NoEmptyLinks(links)
    requires Reported(edges, pages, links)
    ensures FromPages(edges, pages)
  {
    forall i | 0 <= i < |edges|
      ensures edges[i].src in pages && edges[i].dst != ""
    {
      assert "" !in links(edges[i].src);
    }
  }

  /** A sound schedule on a link source that never reports the empty title checks edges from queued pages. */
  lemma SoundFromQueue(layers: Schedule, links: Title -> seq<Title>)
    requires NoEmptyLinks(links) && Sound(layers, links)
    ensures FromQueue(layers)
  {
    forall n: nat, pages: seq<Title>
      ensures FromPages(layers(n, pages), pages)
    {
      ReportedFromPages(layers(n, pages), pages, links);
    }
  }

  /** `root` is the one title of `m` without a predecessor. */
  predicate RootOnly(m: PredMap, root: Title)
  {
    && root in m && m[root] == ""
    && forall k :: k in m && m[k] == "" ==> k == root
  }

  /** Inserts whose linking pages are visited titles add no new root. */
  lemma {:induction false} InsertAllRoot(f: Frontier, edges: seq<Edge>, root: Title)
    requires "" !in f.visited && RootOnly(f.visited, root)
    requires forall i :: 0 <= i < |edges| ==> edges[i].src in f.visited && edges[i].dst != ""
    ensures RootOnly(InsertAll(f, edges).visited, root)
    decreases |edges|
  {
    if edges != [] {
      var e := edges[0];
      var f1 := Visit(f, e.dst, e.src);
      assert e.src != "";
      InsertAllRoot(f1, edges[1..], root);
    }
  }

  /** A forward layer keeps the source as the only forward root. */
  lemma ForwardLayerRoot(g: PageGraph, edges: seq<Edge>, from: Title)
    requires Valid(g.forward) && RootOnly(g.forward.visited, from)
    requires FromPages(edges, g.forward.queue)
    ensures RootOnly(ForwardLayer(g, edges).graph.forward.visited, from)
  {
    var g0 := g.(forward := g.forward.(queue := []));
    ProcessForwardSpec(g0, edges);
    var i := FirstIn(Dsts(edges), g.backward.visited.Keys);
    InsertAllRoot(g0.forward, edges[..Processed(i, |edges|)], from);
  }

  /** A backward layer keeps the target as the only backward root. */
  lemma BackwardLayerRoot(g: PageGraph, edges: seq<Edge>, to: Title)
    requires Valid(g.backward) && RootOnly(g.backward.visited, to)
    requires FromPages(edges, g.backward.queue)
    ensures RootOnly(BackwardLayer(g, edges).graph.backward.visited, to)
  {
    var g0 := g.(backward := g.backward.(queue := []));
    ProcessBackwardSpec(g0, edges);
    var i := FirstIn(Srcs(edges), g.forward.visited.Keys);
    InsertAllRoot(g0.backward, edges[..Processed(i, |edges|)], to);
  }

  /**
   * The layer loop of `searchForward`: run layers until one meets the
   * backward side, the queue runs dry, or the fuel is spent.
   */
  function SearchForward(g: PageGraph, layers: Schedule, fuel: nat): LayerOutcome
    decreases fuel
  {
    if fuel == 0 || g.forward.queue == [] then Continue(g)
    else
      var r := ForwardLayer(g, layers(fuel, g.forward.queue));
      if r.Met? then r else SearchForward(r.graph, layers, fuel - 1)
  }

  /** The layer loop of `searchBackward`. */
  function SearchBackward(g: PageGraph, layers: Schedule, fuel: nat): LayerOutcome
    decreases fuel
  {
    if fuel == 0 || g.backward.queue == [] then Continue(g)
    else
      var r := BackwardLayer(g, layers(fuel, g.backward.queue));
      if r.Met? then r else SearchBackward(r.graph, layers, fuel - 1)
  }

  /** One side of a search from `root`: valid, with `root` as its only root. */
  predicate Side(f: Frontier, root: Title)
  {
    Valid(f) && RootOnly(f.visited, root)
  }

  /** One forward layer keeps the forward side and meets only on titles both sides visited. */
  lemma ForwardStep(g: PageGraph, edges: seq<Edge>, from: Title)
    requires Side(g.forward, from)
    requires FromPages(edges, g.forward.queue)
    ensures var r := ForwardLayer(g, edges);
      && Side(r.graph.forward, from)
      && r.graph.backward == g.backward
      && (r.Met? ==> r.midpoint in r.graph.forward.visited && r.midpoint in r.graph.backward.visited)
  {
    ForwardLayerValid(g, edges);
    ForwardLayerRoot(g, edges, from);
  }

  /** One backward layer keeps the backward side and meets only on titles both sides visited. */
  lemma BackwardStep(g: PageGraph, edges: seq<Edge>, to: Title)
    requires Side(g.backward, to)
    requires FromPages(edges, g.backward.queue)
    ensures var r := BackwardLayer(g, edges);
      && Side(r.graph.backward, to)
      && r.graph.forward == g.forward
      && (r.Met? ==> r.midpoint in r.graph.forward.visited && r.midpoint in r.graph.backward.visited)
  {
    BackwardLayerValid(g, edges);
    BackwardLayerRoot(g, edges, to);
  }

  /**
   * Every recorded predecessor reports a link to the title recorded under
   * it: the forward side grows along links, and so does the backward side,
   * whose `checkBackward(from, to)` records a link `from` of the queried
   * page `to`.
   */
  ghost predicate Linked(m: PredMap, links: Title -> seq<Title>)
  {
    forall k :: k in m && m[k] != "" ==> k in links(m[k])
  }

  /** Inserts along reported links keep every predecessor a linking page. */
  lemma {:induction false} InsertAllLinked(f: Frontier, edges: seq<Edge>, links: Title -> seq<Title>)
    requires Linked(f.visited, links)
    requires forall i :: 0 <= i < |edges| ==> edges[i].dst in links(edges[i].src)
    ensures Linked(InsertAll(f, edges).visited, links)
    decreases |edges|
  {
    if edges != [] {
      var f1 := Visit(f, edges[0].dst, edges[0].src);
      assert Linked(f1.visited, links);
      InsertAllLinked(f1, edges[1..], links);
    }
  }

  /** The part of a layer checked before an early exit is made of reported links. */
  lemma LayerPrefixLinks(edges: seq<Edge>, pages: seq<Title>, links: Title -> seq<Title>, n: nat)
    requires Reported(edges, pages, links)
    requires n <= |edges|
    ensures var pre := edges[..n];
      forall i :: 0 <= i < |pre| ==> pre[i].dst in links(pre[i].src)
  {
    forall i | 0 <= i < n
      ensures edges[..n][i].dst in links(edges[..n][i].src)
    {
      assert edges[..n][i] == edges[i];
    }
  }

  /** One forward layer records only predecessors that link to their titles. */
  lemma ForwardLayerLinked(g: PageGraph, edges: seq<Edge>, links: Title -> seq<Title>)
    requires Linked(g.forward.visited, links)
    requires Reported(edges, g.forward.queue, links)
    ensures Linked(ForwardLayer(g, edges).graph.forward.visited, links)
  {
    var g0 := g.(forward := g.forward.(queue := []));
    ProcessForwardSpec(g0, edges);
    var n := Processed(FirstIn(Dsts(edges), g.backward.visited.Keys), |edges|);
    LayerPrefixLinks(edges, g.forward.queue, links, n);
    InsertAllLinked(g0.forward, edges[..n], links);
  }

  /** One backward layer records only predecessors that link to their titles. */
  lemma BackwardLayerLinked(g: PageGraph, edges: seq<Edge>, links: Title -> seq<Title>)
    requires Linked(g.backward.visited, links)
    requires Reported(edges, g.backward.queue, links)
    ensures Linked(BackwardLayer(g, edges).graph.backward.visited, links)
  {
    var g0 := g.(backward := g.backward.(queue := []));
    ProcessBackwardSpec(g0, edges);
    var n := Processed(FirstIn(Srcs(edges), g.forward.visited.Keys), |edges|);
    LayerPrefixLinks(edges, g.backward.queue, links, n);
    InsertAllLinked(g0.backward, edges[..n], links);
  }

  /** The forward search never touches the backward side. */
  lemma {:induction false} SearchForwardOther(g: PageGraph, layers: Schedule, fuel: nat)
    ensures SearchForward(g, layers, fuel).graph.backward == g.backward
    decreases fuel
  {
    if fuel > 0 && g.forward.queue != [] {
      var edges := layers(fuel, g.forward.queue);
      var l := ForwardLayer(g, edges);
      assert l.graph.backward == g.backward by {
        ProcessForwardKeepsBackward(g.(forward := g.forward.(queue := [])), edges);
      }
      if !l.Met? {
        SearchForwardOther(l.graph, layers, fuel - 1);
      }
    }
  }

  /** The forward search keeps its side valid with `from` as its only root. */
  lemma {:induction false} SearchForwardSide(g: PageGraph, layers: Schedule, fuel: nat, from: Title)
    requires FromQueue(layers)
    ensures Side(g.forward, from) ==> Side(SearchForward(g, layers, fuel).graph.forward, from)
    decreases fuel
  {
    if Side(g.forward, from) && fuel > 0 && g.forward.queue != [] {
      var edges := layers(fuel, g.forward.queue);
      var l := ForwardLayer(g, edges);
      ForwardStep(g, edges, from);
      if !l.Met? {
        SearchForwardSide(l.graph, layers, fuel - 1, from);
      }
    }
  }

  /** A midpoint the forward search reports has been visited by both sides. */
  lemma {:induction false} SearchForwardMeets(g: PageGraph, layers: Schedule, fuel: nat, from: Title)
    requires FromQueue(layers)
    ensures Side(g.forward, from) ==>
      var res := SearchForward(g, layers, fuel);
      res.Met? ==> res.midpoint in res.graph.forward.visited && res.midpoint in res.graph.backward.visited
    decreases fuel
  {
    if Side(g.forward, from) && fuel > 0 && g.forward.queue != [] {
      var edges := layers(fuel, g.forward.queue);
      var l := ForwardLayer(g, edges);
      ForwardStep(g, edges, from);
      if !l.Met? {
        SearchForwardMeets(l.graph, layers, fuel - 1, from);
      }
    }
  }

  /**
   * The forward search keeps its side valid with `from` as its only
   * root, leaves the backward side alone, and reports only midpoints
   * visited on both sides.
   */
  lemma SearchForwardValid(g: PageGraph, layers: Schedule, fuel: nat, from: Title)
    requires Side(g.forward, from)
    requires FromQueue(layers)
    ensures var res := SearchForward(g, layers, fuel);
      && Side(res.graph.forward, from)
      && res.graph.backward == g.backward
      && (res.Met? ==> res.midpoint in res.graph.forward.visited && res.midpoint in res.graph.backward.visited)
  {
    SearchForwardOther(g, layers, fuel);
    SearchForwardSide(g, layers, fuel, from);
    SearchForwardMeets(g, layers, fuel, from);
  }

  /** The backward search never touches the forward side. */
  lemma {:induction false} SearchBackwardOther(g: PageGraph, layers: Schedule, fuel: nat)
    ensures SearchBackward(g, layers, fuel).graph.forward == g.forward
    decreases fuel
  {
    if fuel > 0 && g.backward.queue != [] {
      var edges := layers(fuel, g.backward.queue);
      var l := BackwardLayer(g, edges);
      assert l.graph.forward == g.forward by {
        ProcessBackwardKeepsForward(g.(backward := g.backward.(queue := [])), edges);
      }
      if !l.Met? {
        SearchBackwardOther(l.graph, layers, fuel - 1);
      }
    }
  }

  /** The backward search keeps its side valid with `to` as its only root. */
  lemma {:induction false} SearchBackwardSide(g: PageGraph, layers: Schedule, fuel: nat, to: Title)
    requires FromQueue(layers)
    ensures Side(g.backward, to) ==> Side(SearchBackward(g, layers, fuel).graph.backward, to)
    decreases fuel
  {
    if Side(g.backward, to) && fuel > 0 && g.backward.queue != [] {
      var edges := layers(fuel, g.backward.queue);
      var l := BackwardLayer(g, edges);
      BackwardStep(g, edges, to);
      if !l.Met? {
        SearchBackwardSide(l.graph, layers, fuel - 1, to);
      }
    }
  }

  /** A midpoint the backward search reports has been visited by both sides. */
  lemma {:induction false} SearchBackwardMeets(g: PageGraph, layers: Schedule, fuel: nat, to: Title)
    requires FromQueue(layers)
    ensures Side(g.backward, to) ==>
      var res := SearchBackward(g, layers, fuel);
      res.Met? ==> res.midpoint in res.graph.forward.visited && res.midpoint in res.graph.backward.visited
    decreases fuel
  {
    if Side(g.backward, to) && fuel > 0 && g.backward.queue != [] {
      var edges := layers(fuel, g.backward.queue);
      var l := BackwardLayer(g, edges);
      BackwardStep(g, edges, to);
      if !l.Met? {
        SearchBackwardMeets(l.graph, layers, fuel - 1, to);
      }
    }
  }

  /**
   * The backward search keeps its side valid with `to` as its only
   * root, leaves the forward side alone, and reports only midpoints
   * visited on both sides.
   */
  lemma SearchBackwardValid(g: PageGraph, layers: Schedule, fuel: nat, to: Title)
    requires Side(g.backward, to)
    requires FromQueue(layers)
    ensures var res := SearchBackward(g, layers, fuel);
      && Side(res.graph.backward, to)
      && res.graph.forward == g.forward
      && (res.Met? ==> res.midpoint in res.graph.forward.visited && res.midpoint in res.graph.backward.visited)
  {
    SearchBackwardOther(g, layers, fuel);
    SearchBackwardSide(g, layers, fuel, to);
    SearchBackwardMeets(g, layers, fuel, to);
  }

  /** The forward search records only predecessors that link to their titles. */
  lemma {:induction false} SearchForwardLinked(g: PageGraph, layers: Schedule, links: Title -> seq<Title>, fuel: nat)
    requires Sound(layers, links)
    requires Linked(g.forward.visited, links)
    ensures Linked(SearchForward(g, layers, fuel).graph.forward.visited, links)
    decreases fuel
  {
    if fuel > 0 && g.forward.queue != [] {
      var edges := layers(fuel, g.forward.queue);
      var l := ForwardLayer(g, edges);
      ForwardLayerLinked(g, edges, links);
      if !l.Met? {
        SearchForwardLinked(l.graph, layers, links, fuel - 1);
      }
    }
  }

  /** The backward search records only predecessors that link to their titles. */
  lemma {:induction false} SearchBackwardLinked(g: PageGraph, layers: Schedule, links: Title -> seq<Title>, fuel: nat)
    requires Sound(layers, links)
    requires Linked(g.backward.visited, links)
    ensures Linked(SearchBackward(g, layers, fuel).graph.backward.visited, links)
    decreases fuel
  {
    if fuel > 0 && g.backward.queue != [] {
      var edges := layers(fuel, g.backward.queue);
      var l := BackwardLayer(g, edges);
      BackwardLayerLinked(g, edges, links);
      if !l.Met? {
        SearchBackwardLinked(l.graph, layers, links, fuel - 1);
      }
    }
  }

  /**
   * `p` follows reported links up to its index `k` and runs against them
   * after it: the forward half is a chain of links from the source, and
   * the backward half, grown along outbound links, leads away from the
   * target's links rather than into the target.
   */
  ghost predicate FollowsLinks(p: seq<Title>, k: nat, links: Title -> seq<Title>)
  {
    && (forall i :: 0 <= i < k && i + 1 < |p| ==> p[i + 1] in links(p[i]))
    && (forall i :: k <= i < |p| - 1 ==> p[i] in links(p[i + 1]))
  }

  /** No title of the path through the midpoint is the empty title. */
  lemma PathTitles(fw: PredMap, bw: PredMap, midpoint: Title)
    requires midpoint != ""
    requires WalkEnds(fw, midpoint) && WalkEnds(bw, midpoint)
    ensures var p := JoinedPath(fw, bw, midpoint);
      forall i :: 0 <= i < |p| ==> p[i] != ""
  {
    PathIndex(fw, bw, midpoint);
    ChainShape(fw, midpoint);
    ChainShape(bw, midpoint);
    var fc, bc := Chain(fw, midpoint), Chain(bw, midpoint);
    var p := JoinedPath(fw, bw, midpoint);
    forall i | 0 <= i < |p|
      ensures p[i] != ""
    {
      if i < |fc| - 1 {
        assert p[i] == fc[|fc| - 1 - i];
      } else {
        assert p[i] == bc[i - (|fc| - 1)];
      }
    }
  }

  /** Up to the midpoint, each title of the path is reported as a link of the one before. */
  lemma PathForwardLinks(fw: PredMap, bw: PredMap, midpoint: Title, links: Title -> seq<Title>)
    requires midpoint != ""
    requires WalkEnds(fw, midpoint) && WalkEnds(bw, midpoint)
    requires Linked(fw, links)
    ensures var k := |Chain(fw, midpoint)| - 1;
      var p := JoinedPath(fw, bw, midpoint);
      forall i :: 0 <= i < k && i + 1 < |p| ==> p[i + 1] in links(p[i])
  {
    PathForwardSteps(fw, bw, midpoint);
    PathTitles(fw, bw, midpoint);
  }

  /** After the midpoint, each title of the path is reported as a link of the one after. */
  lemma PathBackwardLinks(fw: PredMap, bw: PredMap, midpoint: Title, links: Title -> seq<Title>)
    requires midpoint != ""
    requires WalkEnds(fw, midpoint) && WalkEnds(bw, midpoint)
    requires Linked(bw, links)
    ensures var k := |Chain(fw, midpoint)| - 1;
      var p := JoinedPath(fw, bw, midpoint);
      forall i :: k <= i < |p| - 1 ==> p[i] in links(p[i + 1])
  {
    PathBackwardSteps(fw, bw, midpoint);
    PathTitles(fw, bw, midpoint);
  }

  /**
   * With both sides grown along links, the path through the midpoint
   * follows links up to the midpoint and runs against them after it.
   */
  lemma PathLinks(fw: PredMap, bw: PredMap, midpoint: Title, links: Title -> seq<Title>)
    requires midpoint != ""
    requires WalkEnds(fw, midpoint) && WalkEnds(bw, midpoint)
    requires Linked(fw, links) && Linked(bw, links)
    ensures var k := |Chain(fw, midpoint)| - 1;
      var p := JoinedPath(fw, bw, midpoint);
      && 0 <= k < |p| && p[k] == midpoint
      && FollowsLinks(p, k, links)
  {
    PathForwardSteps(fw, bw, midpoint);
    PathForwardLinks(fw, bw, midpoint, links);
    PathBackwardLinks(fw, bw, midpoint, links);
  }

  /**
   * When both sides are valid with single roots, the path through a
   * midpoint both sides have visited starts at the source and ends at the
   * target.
   */
  lemma PathFromTo(g: PageGraph, midpoint: Title, from: Title, to: Title)
    requires Side(g.forward, from) && Side(g.backward, to)
    requires midpoint in g.forward.visited && midpoint in g.backward.visited
    ensures midpoint != ""
    ensures WalkEnds(g.forward.visited, midpoint) && WalkEnds(g.backward.visited, midpoint)
    ensures var p := JoinedPath(g.forward.visited, g.backward.visited, midpoint);
      |p| >= 1 && p[0] == from && p[|p| - 1] == to
  {
    PathBetweenRoots(g, midpoint);
  }

  /** The state both searches start from. */
  function Started(from: Title, to: Title): PageGraph
  {
    StartBackward(StartForward(NewPageGraph(), from), to)
  }

  /**
   * The link half of `ForwardSearchPath`: a forward search over sides grown
   * along links meets at a midpoint whose path follows links up to it and
   * runs against them after it.
   */
  lemma SearchForwardFollowsLinks(g: PageGraph, from: Title, to: Title, layers: Schedule, links: Title -> seq<Title>, fuel: nat)
    requires NoEmptyLinks(links) && Sound(layers, links)
    ensures var r := SearchForward(g, layers, fuel);
      Side(g.forward, from) && Side(g.backward, to) && r.Met? ==>
        && r.midpoint != ""
        && WalkEnds(r.graph.forward.visited, r.midpoint) && WalkEnds(r.graph.backward.visited, r.midpoint)
    ensures var r := SearchForward(g, layers, fuel);
      && Side(g.forward, from) && Side(g.backward, to)
      && Linked(g.forward.visited, links) && Linked(g.backward.visited, links)
      && r.Met?
      ==>
        var k := |Chain(r.graph.forward.visited, r.midpoint)| - 1;
        var p := JoinedPath(r.graph.forward.visited, r.graph.backward.visited, r.midpoint);
        0 <= k < |p| && p[k] == r.midpoint && FollowsLinks(p, k, links)
  {
    if Side(g.forward, from) && Side(g.backward, to) {
      SoundFromQueue(layers, links);
      SearchForwardValid(g, layers, fuel, from);
      var r := SearchForward(g, layers, fuel);
      if r.Met? {
        PathBetweenRoots(r.graph, r.midpoint);
        if Linked(g.forward.visited, links) && Linked(g.backward.visited, links) {
          SearchForwardLinked(g, layers, links, fuel);
          PathLinks(r.graph.forward.visited, r.graph.backward.visited, r.midpoint, links);
        }
      }
    }
  }

  /**
   * The link half of `BackwardSearchPath`: a backward search over sides grown
   * along links meets at a midpoint whose path follows links up to it and
   * runs against them after it.
   */
  lemma SearchBackwardFollowsLinks(g: PageGraph, from: Title, to: Title, layers: Schedule, links: Title -> seq<Title>, fuel: nat)
    requires NoEmptyLinks(links) && Sound(layers, links)
    ensures var r := SearchBackward(g, layers, fuel);
      Side(g.forward, from) && Side(g.backward, to) && r.Met? ==>
        && r.midpoint != ""
        && WalkEnds(r.graph.forward.visited, r.midpoint) && WalkEnds(r.graph.backward.visited, r.midpoint)
    ensures var r := SearchBackward(g, layers, fuel);
      && Side(g.forward, from) && Side(g.backward, to)
      && Linked(g.forward.visited, links) && Linked(g.backward.visited, links)
      && r.Met?
      ==>
        var k := |Chain(r.graph.forward.visited, r.midpoint)| - 1;
        var p := JoinedPath(r.graph.forward.visited, r.graph.backward.visited, r.midpoint);
        0 <= k < |p| && p[k] == r.midpoint && FollowsLinks(p, k, links)
  {
    if Side(g.forward, from) && Side(g.backward, to) {
      SoundFromQueue(layers, links);
      SearchBackwardValid(g, layers, fuel, to);
      var r := SearchBackward(g, layers, fuel);
      if r.Met? {
        PathBetweenRoots(r.graph, r.midpoint);
        if Linked(g.forward.visited, links) && Linked(g.backward.visited, links) {
          SearchBackwardLinked(g, layers, links, fuel);
          PathLinks(r.graph.forward.visited, r.graph.backward.visited, r.midpoint, links);
        }
      }
    }
  }

  /**
   * Whole-search soundness, forward side: run against any valid snapshot of
   * the backward side rooted at `to`, with any valid forward side rooted at
   * `from`, a forward search that meets gives a midpoint whose `path` runs
   * from `from` to `to`. When both sides were grown along links, that path
   * follows links up to the midpoint and runs against them after it.
   */
  lemma ForwardSearchPath(g: PageGraph, from: Title, to: Title, layers: Schedule, links: Title -> seq<Title>, fuel: nat)
    requires NoEmptyLinks(links) && Sound(layers, links)
    ensures var r := SearchForward(g, layers, fuel);
      Side(g.forward, from) && Side(g.backward, to) && r.Met? ==>
        && r.midpoint != ""
        && WalkEnds(r.graph.forward.visited, r.midpoint) && WalkEnds(r.graph.backward.visited, r.midpoint)
        && var p := JoinedPath(r.graph.forward.visited, r.graph.backward.visited, r.midpoint);
           |p| >= 1 && p[0] == from && p[|p| - 1] == to
    ensures var r := SearchForward(g, layers, fuel);
      && Side(g.forward, from) && Side(g.backward, to)
      && Linked(g.forward.visited, links) && Linked(g.backward.visited, links)
      && r.Met?
      ==>
        var k := |Chain(r.graph.forward.visited, r.midpoint)| - 1;
        var p := JoinedPath(r.graph.forward.visited, r.graph.backward.visited, r.midpoint);
        0 <= k < |p| && p[k] == r.midpoint && FollowsLinks(p, k, links)
  {
    if Side(g.forward, from) && Side(g.backward, to) {
      SoundFromQueue(layers, links);
      SearchForwardValid(g, layers, fuel, from);
      var r := SearchForward(g, layers, fuel);
      if r.Met? {
        PathFromTo(r.graph, r.midpoint, from, to);
      }
    }
    SearchForwardFollowsLinks(g, from, to, layers, links, fuel);
  }

  /**
   * Whole-search soundness, backward side: run against any valid snapshot
   * of the forward side rooted at `from`, a backward search that meets gives
   * a midpoint whose `path` runs from `from` to `to`, following links up to
   * the midpoint and against them after it when both sides were grown
   * along links.
   */
  lemma BackwardSearchPath(g: PageGraph, from: Title, to: Title, layers: Schedule, links: Title -> seq<Title>, fuel: nat)
    requires NoEmptyLinks(links) && Sound(layers, links)
    ensures var r := SearchBackward(g, layers, fuel);
      Side(g.forward, from) && Side(g.backward, to) && r.Met? ==>
        && r.midpoint != ""
        && WalkEnds(r.graph.forward.visited, r.midpoint) && WalkEnds(r.graph.backward.visited, r.midpoint)
        && var p := JoinedPath(r.graph.forward.visited, r.graph.backward.visited, r.midpoint);
           |p| >= 1 && p[0] == from && p[|p| - 1] == to
    ensures var r := SearchBackward(g, layers, fuel);
      && Side(g.forward, from) && Side(g.backward, to)
      && Linked(g.forward.visited, links) && Linked(g.backward.visited, links)
      && r.Met?
      ==>
        var k := |Chain(r.graph.forward.visited, r.midpoint)| - 1;
        var p := JoinedPath(r.graph.forward.visited, r.graph.backward.visited, r.midpoint);
        0 <= k < |p| && p[k] == r.midpoint && FollowsLinks(p, k, links)
  {
    if Side(g.forward, from) && Side(g.backward, to) {
      SoundFromQueue(layers, links);
      SearchBackwardValid(g, layers, fuel, to);
      var r := SearchBackward(g, layers, fuel);
      if r.Met? {
        PathFromTo(r.graph, r.midpoint, from, to);
      }
    }
    SearchBackwardFollowsLinks(g, from, to, layers, links, fuel);
  }

  /** `ForwardSearchPath` from the state both searches start from. */
  lemma ForwardSearchPathStarted(from: Title, to: Title, layers: Schedule, links: Title -> seq<Title>, fuel: nat)
    requires from != "" && to != ""
    requires NoEmptyLinks(links) && Sound(layers, links)
    ensures var r := SearchForward(Started(from, to), layers, fuel);
      r.Met? ==>
        && r.midpoint != ""
        && WalkEnds(r.graph.forward.visited, r.midpoint) && WalkEnds(r.graph.backward.visited, r.midpoint)
        && var p := JoinedPath(r.graph.forward.visited, r.graph.backward.visited, r.midpoint);
           |p| >= 1 && p[0] == from && p[|p| - 1] == to
    ensures var r := SearchForward(Started(from, to), layers, fuel);
      r.Met? ==>
        var k := |Chain(r.graph.forward.visited, r.midpoint)| - 1;
        var p := JoinedPath(r.graph.forward.visited, r.graph.backward.visited, r.midpoint);
        0 <= k < |p| && p[k] == r.midpoint && FollowsLinks(p, k, links)
  {
    StartValid(from, to);
    var g := Started(from, to);
    assert Linked(g.forward.visited, links) && Linked(g.backward.visited, links);
    ForwardSearchPath(g, from, to, layers, links, fuel);
  }

  /** `BackwardSearchPath` from the state both searches start from. */
  lemma BackwardSearchPathStarted(from: Title, to: Title, layers: Schedule, links: Title -> seq<Title>, fuel: nat)
    requires from != "" && to != ""
    requires NoEmptyLinks(links) && Sound(layers, links)
    ensures var r := SearchBackward(Started(from, to), layers, fuel);
      r.Met? ==>
        && r.midpoint != ""
        && WalkEnds(r.graph.forward.visited, r.midpoint) && WalkEnds(r.graph.backward.visited, r.midpoint)
        && var p := JoinedPath(r.graph.forward.visited, r.graph.backward.visited, r.midpoint);
           |p| >= 1 && p[0] == from && p[|p| - 1] == to
    ensures var r := SearchBackward(Started(from, to), layers, fuel);
      r.Met? ==>
        var k := |Chain(r.graph.forward.visited, r.midpoint)| - 1;
        var p := JoinedPath(r.graph.forward.visited, r.graph.backward.visited, r.midpoint);
        0 <= k < |p| && p[k] == r.midpoint && FollowsLinks(p, k, links)
  {
    StartValid(from, to);
    var g := Started(from, to);
    assert Linked(g.forward.visited, links) && Linked(g.backward.visited, links);
    BackwardSearchPath(g, from, to, layers, links, fuel);
  }

  /**
   * A source page that links straight to the target: the first forward
   * layer meets at the target, with the source recorded as its
   * predecessor.
   */
  lemma DirectLinkMeets(from: Title, to: Title, layers: Schedule, links: Title -> seq<Title>, fuel: nat)
    requires from != "" && to != "" && from != to
    requires to in links(from)
    requires Sound(layers, links) && Complete(layers, links)
    requires fuel > 0
    ensures var r := SearchForward(Started(from, to), layers, fuel);
      && r.Met? && r.midpoint == to
      && r.graph.backward.visited == map[to := ""]
      && from in r.graph.forward.visited && r.graph.forward.visited[from] == ""
      && to in r.graph.forward.visited && r.graph.forward.visited[to] == from
  {
    var g := Started(from, to);
    assert g.forward.queue == [from];
    var edges := layers(fuel, [from]);
    assert Reported(edges, [from], links) && Covers(edges, [from], links);
    assert Edge(from, to) in edges;
    DirectLinkLayer(from, to, edges);
  }

  /** The first forward layer over edges of the source alone, one of them to the target. */
  lemma DirectLinkLayer(from: Title, to: Title, edges: seq<Edge>)
    requires from != "" && to != "" && from != to
    requires Edge(from, to) in edges
    requires forall m :: 0 <= m < |edges| ==> edges[m].src in [from]
    ensures var r := ForwardLayer(Started(from, to), edges);
      && r.Met? && r.midpoint == to
      && r.graph.backward.visited == map[to := ""]
      && from in r.graph.forward.visited && r.graph.forward.visited[from] == ""
      && to in r.graph.forward.visited && r.graph.forward.visited[to] == from
  {
    var g := Started(from, to);
    assert g.forward == Frontier(map[from := ""], [from]);
    assert g.backward == Frontier(map[to := ""], [to]);
    var j :| 0 <= j < |edges| && edges[j] == Edge(from, to);
    assert edges[j].dst in g.backward.visited;
    ForwardLayerHit(g, edges, j);
    var r := ForwardLayer(g, edges);
    var i := FirstIn(Dsts(edges), g.backward.visited.Keys);
    assert edges[i].dst == to;
    var f0 := g.forward.(queue := []);
    var pre := edges[..i + 1];
    assert r.graph.forward == InsertAll(f0, pre);
    InsertAllKeeps(f0, pre, from);
    assert forall m :: 0 <= m < |pre| ==> pre[m].src == from by {
      forall m | 0 <= m < |pre|
        ensures pre[m].src == from
      {
        assert pre[m] == edges[m];
      }
    }
    InsertAllFrom(f0, pre, from, to, i);
  }

  /** Inserting links of one page records that page for a title it links to first. */
  lemma InsertAllFrom(f: Frontier, edges: seq<Edge>, from: Title, to: Title, i: nat)
    requires i < |edges| && edges[i].dst == to && to !in f.visited
    requires forall m :: 0 <= m < |edges| ==> edges[m].src == from
    ensures to in InsertAll(f, edges).visited && InsertAll(f, edges).visited[to] == from
  {
    var ds := Dsts(edges);
    var k := FirstPos(ds, to);
    assert k <= i by {
      assert ds[i] == to;
    }
    assert forall m :: 0 <= m < k ==> edges[m].dst != to by {
      assert forall m :: 0 <= m < k ==> ds[m] == edges[m].dst;
    }
    InsertAllFirst(f, edges, to, k);
  }

  /** Source -> target with the target as the backward root is the path source, target. */
  lemma TwoStepPath(fw: PredMap, bw: PredMap, from: Title, to: Title)
    requires from != "" && to != "" && from != to
    requires from in fw && fw[from] == "" && to in fw && fw[to] == from
    requires bw == map[to := ""]
    ensures WalkEnds(fw, to) && WalkEnds(bw, to)
    ensures JoinedPath(fw, bw, to) == [from, to]
  {
    var none: seq<Title> := [];
    assert [from] + none == [from];
    assert [to] + none == [to];
    assert |fw| >= 2 by {
      assert {from, to} <= fw.Keys;
      SubsetCard({from, to}, fw.Keys);
    }
    WalkStep(fw, from, |fw|, none);
    WalkStep(fw, to, |fw| + 1, [from]);
    WalkStep(bw, to, |bw| + 1, none);
    var fc := [to, from];
    assert Chain(fw, to) == fc;
    assert Chain(bw, to) == [to];
    assert Reverse(fc) == [from, to];
  }

  /**
   * A source page that links straight to the target: the search meets at
   * the target and the path is the source then the target.
   */
  lemma DirectLink(from: Title, to: Title, layers: Schedule, links: Title -> seq<Title>, fuel: nat)
    requires from != "" && to != "" && from != to
    requires to in links(from)
    requires Sound(layers, links) && Complete(layers, links)
    requires fuel > 0
    ensures var r := SearchForward(Started(from, to), layers, fuel);
      && r.Met? && r.midpoint == to
      && WalkEnds(r.graph.forward.visited, to) && WalkEnds(r.graph.backward.visited, to)
      && JoinedPath(r.graph.forward.visited, r.graph.backward.visited, to) == [from, to]
  {
    DirectLinkMeets(from, to, layers, links, fuel);
    var r := SearchForward(Started(from, to), layers, fuel);
    TwoStepPath(r.graph.forward.visited, r.graph.backward.visited, from, to);
  }

  /**
   * `checkForward` as written, fed the title a page reports for itself
   * rather than the title that was queued. A search started at
   * "mike Tyson" gets the links of "Mike Tyson": "Boxing" is recorded
   * under "Mike Tyson", which is not in the visited map; when "Boxing"
   * links back, "Mike Tyson" is recorded under "Boxing". The two titles
   * are now each other's predecessor and no walk through them ends.
   */
  lemma ReportedTitleCycle()
    ensures var g := Started("mike Tyson", "Muhammad Ali");
      var c1 := CheckForward(g, "Mike Tyson", "Boxing");
      var c2 := CheckForward(c1.graph, "Boxing", "Mike Tyson");
      var m := c2.graph.forward.visited;
      && !c1.done && !c2.done
      && "Boxing" in m && m["Boxing"] == "Mike Tyson"
      && "Mike Tyson" in m && m["Mike Tyson"] == "Boxing"
      && !WalkEnds(m, "Boxing") && !WalkEnds(m, "Mike Tyson")
  {
    var g := Started("mike Tyson", "Muhammad Ali");
    var c1 := CheckForward(g, "Mike Tyson", "Boxing");
    var c2 := CheckForward(c1.graph, "Boxing", "Mike Tyson");
    var m := c2.graph.forward.visited;
    assert m == map["mike Tyson" := "", "Boxing" := "Mike Tyson", "Mike Tyson" := "Boxing"];
    TwoCycleNeverEnds(m, "Boxing", "Mike Tyson", |m| + 1);
  }
}

=== FILE: seqs.dfy ===
/** Generic facts about sequences used throughout the model. */
module Seqs {

  /** The elements of `s` in the opposite order. */
  function Reverse<T>(s: seq<T>): (r: seq<T>)
    ensures |r| == |s|
    ensures forall i :: 0 <= i < |s| ==> r[i] == s[|s| - 1 - i]
  {
    if s == [] then [] else Reverse(s[1..]) + [s[0]]
  }

  /** The concatenation of the sequences of `ss`, in order. */
  function Flatten<T>(ss: seq<seq<T>>): seq<T>
  {
    if ss == [] then [] else ss[0] + Flatten(ss[1..])
  }

  /** No element occurs twice. */
  predicate Distinct<T(==)>(s: seq<T>)
  {
    forall i, j :: 0 <= i < j < |s| ==> s[i] != s[j]
  }

  /** The index of the first element of `ts` that lies in `s`, or `|ts|` if there is none. */
  function FirstIn<T(==)>(ts: seq<T>, s: set<T>): (i: nat)
    ensures i <= |ts|
    ensures forall j :: 0 <= j < i ==> ts[j] !in s
    ensures i < |ts| ==> ts[i] in s
  {
    if ts == [] then 0
    else if ts[0] in s then 0
    else 1 + FirstIn(ts[1..], s)
  }

  /** The index of the first occurrence of `x` in `ts`, or `|ts|` if it does not occur. */
  function FirstPos<T(==)>(ts: seq<T>, x: T): (i: nat)
    ensures i <= |ts|
    ensures forall j :: 0 <= j < i ==> ts[j] != x
    ensures i < |ts| <==> x in ts
    ensures i < |ts| ==> ts[i] == x
  {
    FirstIn(ts, {x})
  }

  /** Moving past a head that is not `x` adds one to the position of `x`. */
  lemma FirstPosTail<T>(ts: seq<T>, x: T)
    requires |ts| > 0 && ts[0] != x
    ensures FirstPos(ts, x) == 1 + FirstPos(ts[1..], x)
  {
  }

  /**
   * The elements of `ts` not in `known`, each kept at its first occurrence:
   * the order in which a breadth-first layer discovers new titles.
   */
  function FirstSeen<T(==)>(known: set<T>, ts: seq<T>): seq<T>
    decreases |ts|
  {
    if ts == [] then []
    else if ts[0] in known then FirstSeen(known, ts[1..])
    else [ts[0]] + FirstSeen(known + {ts[0]}, ts[1..])
  }

  /** `FirstSeen` keeps exactly the elements of `ts` that are not `known`. */
  lemma {:induction false} FirstSeenElems<T>(known: set<T>, ts: seq<T>)
    decreases |ts|
    ensures forall x :: x in FirstSeen(known, ts) <==> x in ts && x !in known
  {
    if ts != [] {
      assert ts == [ts[0]] + ts[1..];
      if ts[0] in known {
        FirstSeenElems(known, ts[1..]);
      } else {
        FirstSeenElems(known + {ts[0]}, ts[1..]);
      }
    }
  }

  /** `FirstSeen` lists its elements in the order of their first occurrences in `ts`. */
  lemma {:induction false} FirstSeenOrder<T>(known: set<T>, ts: seq<T>)
    decreases |ts|
    ensures forall i, j :: 0 <= i < j < |FirstSeen(known, ts)| ==>
              FirstPos(ts, FirstSeen(known, ts)[i]) < FirstPos(ts, FirstSeen(known, ts)[j])
  {
    if ts != [] {
      var t, rest := ts[0], ts[1..];
      var k := if t in known then known else known + {t};
      FirstSeenOrder(k, rest);
      FirstSeenElems(k, rest);
      var q' := FirstSeen(k, rest);
      forall i | 0 <= i < |q'|
        ensures FirstPos(ts, q'[i]) == 1 + FirstPos(rest, q'[i])
      {
        assert q'[i] in q';
        FirstPosTail(ts, q'[i]);
      }
      if t !in known {
        var q := [t] + q';
        assert FirstSeen(known, ts) == q;
        forall i, j | 0 <= i < j < |q|
          ensures FirstPos(ts, q[i]) < FirstPos(ts, q[j])
        {
          assert q[j] == q'[j - 1];
          if i > 0 {
            assert q[i] == q'[i - 1];
          }
        }
      }
    }
  }

  /**
   * `FirstSeen` lists every new element exactly once, and in the order of
   * the first occurrences in `ts`.
   */
  lemma FirstSeenSpec<T>(known: set<T>, ts: seq<T>)
    ensures Distinct(FirstSeen(known, ts))
    ensures forall x :: x in FirstSeen(known, ts) <==> x in ts && x !in known
    ensures forall i, j :: 0 <= i < j < |FirstSeen(known, ts)| ==>
              FirstPos(ts, FirstSeen(known, ts)[i]) < FirstPos(ts, FirstSeen(known, ts)[j])
  {
    FirstSeenElems(known, ts);
    FirstSeenOrder(known, ts);
  }

  /** A sequence without repetitions has as many distinct elements as it is long. */
  lemma {:induction false} DistinctCard<T>(s: seq<T>)
    requires Distinct(s)
    ensures |set x | x in s| == |s|
  {
    if s != [] {
      var rest := s[1..];
      assert Distinct(rest) by {
        forall i, j | 0 <= i < j < |rest| ensures rest[i] != rest[j] {
          assert rest[i] == s[i + 1] && rest[j] == s[j + 1];
        }
      }
      DistinctCard(rest);
      assert (set x | x in s) == {s[0]} + (set x | x in rest) by {
        assert s == [s[0]] + rest;
      }
      assert s[0] !in rest;
    }
  }
}

=== FILE: visited.dfy ===
/**
 * The per-side visited map of the bidirectional search (`safeStringMap` in
 * links/links.go and wikiracer.go): every discovered title is mapped to the
 * title it was discovered from, and the empty title marks a root. The lock
 * around the Go map is not modelled; a map here is an immutable value.
 */
module VisitedMaps {
  import opened Wrappers
  import opened Seqs

  /** An article title; the empty title is the "no predecessor" marker. */
  type Title = string

  /** Title -> predecessor title. */
  type PredMap = map<Title, Title>

  /** `safeStringMap.Get` with the existence flag dropped: a missing key reads as "". */
  function Get(m: PredMap, t: Title): (r: Title)
    ensures t in m ==> r == m[t]
    ensures t !in m ==> r == ""
  {
    if t in m then m[t] else ""
  }

  /**
   * The loop of `path` that follows predecessors from `t` until it reads the
   * empty title, allowed at most `fuel` steps: `Some(c)` is the list of
   * titles visited, `None` says the walk had not ended within `fuel` steps.
   */
  function Walk(m: PredMap, t: Title, fuel: nat): Option<seq<Title>>
    decreases fuel
  {
    if t == "" then Some([])
    else if fuel == 0 then None
    else match Walk(m, Get(m, t), fuel - 1)
      case Some(c) => Some([t] + c)
      case None => None
  }

  /** The walk from `t` ends; by `WalkBound` this is the same as ending at all. */
  predicate WalkEnds(m: PredMap, t: Title)
  {
    Walk(m, t, |m| + 1).Some?
  }

  /** The titles the walk from `t` visits, `t` first and the root last. */
  function Chain(m: PredMap, t: Title): seq<Title>
    requires WalkEnds(m, t)
  {
    Walk(m, t, |m| + 1).value
  }

  /** Every predecessor is either the root marker or itself a visited title. */
  predicate Closed(m: PredMap)
  {
    forall k {:trigger m[k]} :: k in m ==> m[k] == "" || m[k] in m
  }

  /** Every visited title's predecessor chain ends at a root. */
  predicate Rooted(m: PredMap)
  {
    Closed(m) && forall k {:trigger WalkEnds(m, k)} :: k in m ==> WalkEnds(m, k)
  }

  /**
   * A finished walk starts at `t`, never visits the empty title, steps
   * from each title to its predecessor, and stops at a title whose
   * predecessor reads as "".
   */
  lemma {:induction false} WalkShape(m: PredMap, t: Title, fuel: nat)
    requires Walk(m, t, fuel).Some?
    ensures var c := Walk(m, t, fuel).value;
      && |c| <= fuel
      && (c == [] <==> t == "")
      && (c != [] ==> c[0] == t && Get(m, c[|c| - 1]) == "")
      && (forall i :: 0 <= i < |c| ==> c[i] != "")
      && (forall i :: 0 <= i < |c| - 1 ==> c[i + 1] == Get(m, c[i]))
    decreases fuel
  {
    if t != "" {
      WalkShape(m, Get(m, t), fuel - 1);
      var c' := Walk(m, Get(m, t), fuel - 1).value;
      var c := [t] + c';
      assert Walk(m, t, fuel).value == c;
      forall i | 0 <= i < |c| - 1
        ensures c[i + 1] == Get(m, c[i])
      {
        if i > 0 {
          assert c[i] == c'[i - 1] && c[i + 1] == c'[i];
        }
      }
    }
  }

  /** One step of the walk: a non-empty title followed by the walk from its predecessor. */
  lemma WalkStep(m: PredMap, t: Title, fuel: nat, rest: seq<Title>)
    requires t != "" && fuel > 0
    requires Walk(m, Get(m, t), fuel - 1) == Some(rest)
    ensures Walk(m, t, fuel) == Some([t] + rest)
  {
  }

  /**
   * Two titles recorded as each other's predecessor: the walk from either
   * never reaches the empty title, whatever the fuel, so the loop of `path`
   * never exits.
   */
  lemma {:induction false} TwoCycleNeverEnds(m: PredMap, a: Title, b: Title, fuel: nat)
    requires a != "" && b != ""
    requires a in m && m[a] == b && b in m && m[b] == a
    ensures Walk(m, a, fuel).None? && Walk(m, b, fuel).None?
    decreases fuel
  {
    if fuel > 0 {
      TwoCycleNeverEnds(m, a, b, fuel - 1);
    }
  }

  /** The shape of a chain, restated for `Chain`. */
  lemma ChainShape(m: PredMap, t: Title)
    requires WalkEnds(m, t)
    ensures var c := Chain(m, t);
      && (c == [] <==> t == "")
      && (c != [] ==> c[0] == t && Get(m, c[|c| - 1]) == "")
      && (forall i :: 0 <= i < |c| ==> c[i] != "")
      && (forall i :: 0 <= i < |c| - 1 ==> c[i + 1] == Get(m, c[i]))
  {
    WalkShape(m, t, |m| + 1);
  }

  /** More fuel never changes a walk that has already ended. */
  lemma {:induction false} WalkMono(m: PredMap, t: Title, fuel: nat, more: nat)
    requires Walk(m, t, fuel).Some?
    requires fuel <= more
    ensures Walk(m, t, more) == Walk(m, t, fuel)
    decreases fuel
  {
    if t != "" {
      WalkMono(m, Get(m, t), fuel - 1, more - 1);
    }
  }

  /** A finished walk needs exactly as many steps as titles it visits. */
  lemma {:induction false} WalkExact(m: PredMap, t: Title, fuel: nat)
    requires Walk(m, t, fuel).Some?
    ensures Walk(m, t, |Walk(m, t, fuel).value|) == Walk(m, t, fuel)
    decreases fuel
  {
    if t != "" {
      WalkExact(m, Get(m, t), fuel - 1);
    }
  }

  /** Each suffix of a finished walk is the walk from its first title. */
  lemma {:induction false} WalkSuffix(m: PredMap, t: Title, fuel: nat, k: nat)
    requires Walk(m, t, fuel).Some?
    requires k < |Walk(m, t, fuel).value|
    ensures k <= fuel
    ensures Walk(m, Walk(m, t, fuel).value[k], fuel - k) == Some(Walk(m, t, fuel).value[k..])
    decreases fuel
  {
    WalkShape(m, t, fuel);
    var c := Walk(m, t, fuel).value;
    if k == 0 {
      assert c[0..] == c;
    } else {
      var c' := Walk(m, Get(m, t), fuel - 1).value;
      assert c == [t] + c';
      WalkSuffix(m, Get(m, t), fuel - 1, k - 1);
      assert c'[k - 1] == c[k];
      assert c'[k - 1..] == c[k..];
    }
  }

  /** A finished walk never visits a title twice. */
  lemma WalkDistinct(m: PredMap, t: Title, fuel: nat)
    requires Walk(m, t, fuel).Some?
    ensures Distinct(Walk(m, t, fuel).value)
  {
    var c := Walk(m, t, fuel).value;
    forall i, j | 0 <= i < j < |c|
      ensures c[i] != c[j]
    {
      if c[i] == c[j] {
        WalkSuffix(m, t, fuel, i);
        WalkSuffix(m, t, fuel, j);
        WalkMono(m, c[j], fuel - j, fuel - i);
        assert false;
      }
    }
  }

  /** Every title but the last one on a finished walk is a key of the map. */
  lemma WalkBodyInKeys(m: PredMap, t: Title, fuel: nat)
    requires Walk(m, t, fuel).Some?
    requires Walk(m, t, fuel).value != []
    ensures forall x :: x in Walk(m, t, fuel).value[..|Walk(m, t, fuel).value| - 1] ==> x in m
  {
    var c := Walk(m, t, fuel).value;
    WalkShape(m, t, fuel);
    var body := c[..|c| - 1];
    forall x | x in body
      ensures x in m
    {
      var i :| 0 <= i < |body| && body[i] == x;
      assert c[i + 1] == Get(m, c[i]) && c[i + 1] != "";
    }
  }

  /**
   * A walk that ends at all never repeats a title and visits at most
   * `|m| + 1` titles, so `WalkEnds` holds exactly when the `path` loop
   * starting at `t` terminates.
   */
  lemma WalkBound(m: PredMap, t: Title, fuel: nat)
    requires Walk(m, t, fuel).Some?
    ensures Distinct(Walk(m, t, fuel).value)
    ensures |Walk(m, t, fuel).value| <= |m| + 1
    ensures WalkEnds(m, t) && Chain(m, t) == Walk(m, t, fuel).value
  {
    var c := Walk(m, t, fuel).value;
    WalkDistinct(m, t, fuel);
    if c != [] {
      var body := c[..|c| - 1];
      assert Distinct(body);
      DistinctCard(body);
      WalkBodyInKeys(m, t, fuel);
      var elems := set x | x in body;
      assert elems <= m.Keys;
      SubsetCard(elems, m.Keys);
    }
    WalkExact(m, t, fuel);
    WalkMono(m, t, |c|, |m| + 1);
  }

  /** A subset is no larger than its superset. */
  lemma SubsetCard<T>(a: set<T>, b: set<T>)
    requires a <= b
    ensures |a| <= |b|
  {
    assert b == a + (b - a);
  }

  /** In a closed map every title on the walk from a visited title is itself visited. */
  lemma {:induction false} WalkInKeys(m: PredMap, t: Title, fuel: nat)
    requires Closed(m) && t in m
    requires Walk(m, t, fuel).Some?
    ensures forall x :: x in Walk(m, t, fuel).value ==> x in m
    decreases fuel
  {
    if t != "" {
      var c' := Walk(m, m[t], fuel - 1).value;
      assert Walk(m, t, fuel).value == [t] + c';
      if m[t] != "" {
        WalkInKeys(m, m[t], fuel - 1);
      }
    }
  }

  /** Writing a key that a finished walk never visits does not change the walk. */
  lemma {:induction false} WalkUnaffected(m: PredMap, t: Title, fuel: nat, key: Title, pred: Title)
    requires Walk(m, t, fuel).Some?
    requires key !in Walk(m, t, fuel).value
    ensures Walk(m[key := pred], t, fuel) == Walk(m, t, fuel)
    decreases fuel
  {
    if t != "" {
      var c' := Walk(m, Get(m, t), fuel - 1).value;
      assert Walk(m, t, fuel).value == [t] + c';
      assert Get(m[key := pred], t) == Get(m, t);
      WalkUnaffected(m, Get(m, t), fuel - 1, key, pred);
    }
  }

  /**
   * Inserting a new title whose predecessor is a root marker or an already
   * visited title keeps every chain ending at a root: the invariant that
   * makes the walk of `path` terminate.
   */
  lemma InsertRooted(m: PredMap, key: Title, pred: Title)
    requires Rooted(m)
    requires key !in m
    requires pred == "" || pred in m
    ensures Rooted(m[key := pred])
  {
    var m' := m[key := pred];
    assert |m'| == |m| + 1;
    forall k | k in m
      ensures WalkEnds(m', k)
    {
      assert WalkEnds(m, k);
      WalkInKeys(m, k, |m| + 1);
      WalkUnaffected(m, k, |m| + 1, key, pred);
      WalkMono(m', k, |m| + 1, |m'| + 1);
    }
    if pred != "" {
      assert WalkEnds(m, pred);
      WalkInKeys(m, pred, |m| + 1);
      WalkUnaffected(m, pred, |m| + 1, key, pred);
    }
    assert Walk(m', pred, |m| + 1).Some?;
    assert Get(m', key) == pred;
    assert WalkEnds(m', key);
  }
}

=== FILE: wrappers.dfy ===
/** A plain optional value, used for walks that may not end within their fuel. */
module Wrappers {

  /** A value that may be absent. */
  datatype Option<+T> = None | Some(value: T)
}
